=== FILE: README.md ===
# Stock trading server: allocation, purchase, ledger and valuation

A Dafny model of the transaction server of stock-trading-go. The server
exposes two remote calls:

- **Buy** takes a budget and a request such as `"GOOG:50%,YHOO:50%"`. It
  divides the budget among the tickers and asks a quote provider for their
  last trade prices. It buys as many whole shares of each ticker as its cash
  covers and files the trade under a fresh identifier. It replies with the
  identifier, a summary `"GOOG:12:$410.5,YHOO:54:$36.2"` and the unvested
  remainder.
- **Check** takes a trade identifier. It looks the trade up, prices its
  holdings at the current quotes and replies with a summary such as
  `"GOOG:12:+$420.1,..."`, which carries a gain or loss marker and the
  current price per holding. The reply also carries, in fields of their own,
  the current market value and the unvested amount. An unknown identifier
  gets the all-zero reply.

The model follows `server/server.go` stage by stage, one module per stage:

| module | stage |
|---|---|
| `AllocationParser` | `buyRequestToBuyStock`: padding, splitting, token recognition, percentages and error codes |
| `Quotes` | `jsonStructToMap` (provider rows to a price map, plus the missing-price flag) and `responseStockToBuyStock` (the symbols a check asks for) |
| `Allocator` | `stockBuyer`: whole shares by truncated division, remainders by `math.Mod` |
| `Ledger` | the globals `tradeIDStart` and `database`, with identifier issuing and lookup |
| `Valuation` | `profitLoss` |
| `Render` | the two summary builders |
| `Transaction` | the control flow of `Buy` and `Check` |
| `SingleSymbolBuy` | a first one-ticker buy traced through every stage |

`Types` and `Text` hold the shared records and the string primitives:
`strings.Split`, `strings.ToUpper`, `strconv.Itoa` and digit strings.

Modelling choices:

- Money is `real`.
- Go's `int(x)` on a float truncates toward zero. This is `Allocator.Trunc`.
- `math.Mod(x, y)` is `x - trunc(x/y)*y`. This is `Allocator.FMod`.
- The quote provider is a function parameter `provider`. It maps the list of
  requested symbols to the decoded quote rows. A row's price is `None` when
  the provider sent an empty last-trade price.
- Float formatting (`strconv.FormatFloat`) is a function parameter `fmt`.
- The server state is an immutable `Ledger.Ledger` value. `Buy` returns the
  new ledger with its reply. `Check` returns only a reply, so it cannot
  change the ledger.

Two behaviours of the code are reproduced as written:

- A request without a comma is padded with the placeholder token
  `X.Y.Z:0%`. The allocator then drops a trailing `X.Y.Z` entry, and
  `Allocator.Dropped` measures the cash that goes with it. That cash is zero
  for the padding. It is not zero for a request that names `X.Y.Z` itself
  as the second ticker, for instance `"A:50%,X.Y.Z:50%"`: half the budget is
  then neither spent nor counted as unvested. `Transaction.BuyConservesBudget`
  states the balance with that term.
- The allocator's result has one slot per quoted symbol. Slots beyond the
  walked entries keep Go's zero value (`Types.Unfilled`), so they show up
  in the summary.

Where the behaviour the service is meant to have and the code differ, the
model follows the code:

- When a request both has a malformed token and percentages that do not
  add up to 100, the reply is the sum error, not the format error.
- Only an empty price counts as a missing quote. A zero price passes the
  quote check and then divides by zero, so it is excluded by precondition
  rather than reported.
- The check summary shows each holding's current per-share price, not the
  price times the share count. The market value total does multiply.
- Tickers may also contain underscores, because the pattern uses `\w`, and
  a ticker needs at least one letter, digit or underscore, because the
  pattern starts at a word boundary.
- The provider is asked for every parsed entry's symbol, in order, with the
  padding included. Symbols are not deduplicated.
- Share counts truncate toward zero (`int(x)`). The budget is never
  checked, so this is the floor only for a non-negative budget.

## Model

| member | source | states |
|---|---|---|
| `AllocationParser.Lex` | server/server.go:221-229 | a recognised token, written back out, is exactly the text it was recognised from |
| `AllocationParser.LexComplete` | server/server.go:221-222 | every token of the grammar (a ticker of letters, digits, underscores and dots with at least one letter, digit or underscore, colon, digits, optional dot and digits, percent) is recognised from its own text |
| `AllocationParser.LexExactly` | server/server.go:221-229 | a text yields token t if and only if t is valid (its ticker has a word character) and the text is t written out |
| `AllocationParser.DotTickerRejected` | server/server.go:221-224 | a token whose ticker is dots alone is malformed, because the pattern's word boundary has nowhere to start |
| `AllocationParser.LeadingSpaceRejected` | server/server.go:221-224 | a token that starts with a space, such as the one after `", "`, is never recognised |
| `AllocationParser.LexTicker` | server/server.go:226-227 | a recognised token's ticker is exactly the text before its colon |
| `AllocationParser.Percent` | server/server.go:229 | the percentage read from a valid token is never negative |
| `AllocationParser.PercentValue` | server/server.go:229 | the percentage is the decimal number the token spells: the whole digits' value, or the whole and fractional digits read as one integer divided by ten to the fraction's length |
| `Text.DigitsAppend` | server/server.go:229 | digits written after other digits: the front's value is shifted by ten to the back's length and the back's value is added |
| `AllocationParser.Scan` | server/server.go:217-233 | the loop makes one entry per token, in order: upper-cased ticker and that share of the budget for a good token, the zero entry for a bad one. The running total sums the good tokens' percentages. The error is 2 exactly when some token is bad |
| `AllocationParser.Decide` | server/server.go:234-237 | after the loop the code is 1 exactly when the total is not 100, 2 exactly when it is 100 and some token is bad, and 0 exactly when it is 100 and every token is good |
| `AllocationParser.ParseBuyRequest` | server/server.go:210-238 | at least two entries, one per comma-separated token of the padded request, each the entry of that token; the code trichotomy of `Decide` over those tokens |
| `AllocationParser.TokensAtLeastTwo` | server/server.go:212-215 | once padded, a request always splits into at least two tokens |
| `AllocationParser.PlaceholderTokenLexes` | server/server.go:213 | the padding token `X.Y.Z:0%` is well formed, adds 0 percent and is unchanged by upper-casing |
| `AllocationParser.ParsePadsSingleToken` | server/server.go:211-215 | a request without a comma becomes exactly two entries, the second being `X.Y.Z` with no cash, and the percentage total is that of the request alone |
| `AllocationParser.EntriesSum` | server/server.go:230-231 | the entries' cash adds up to the total percentage's share of the budget |
| `AllocationParser.ParseOkSpendsBudget` | server/server.go:226-236 | when the code is 0 the entries' cash adds up to exactly the budget |
| `AllocationParser.UpperTickerHasNoSeparator` | server/server.go:227 | an upper-cased ticker contains neither "," nor ":" |
| `AllocationParser.ParsedSymbolsHaveNoSeparator` | server/server.go:215-227 | when the code is 0, every entry's symbol is free of "," and ":" |
| `AllocationParser.ParseOkEntries` | server/server.go:223-231 | when the code is 0 every token is well formed, and its entry is its upper-cased non-empty ticker with its percentage of the budget |
| `Text.Split` | server/server.go:215 | splitting gives at least one piece, exactly one when the separator is absent, and no piece holds the separator |
| `Text.JoinSplit` | server/server.go:215 | joining the pieces of a split with the separator gives back the original text |
| `Text.SplitJoin` | server/server.go:226 | splitting a join of separator-free pieces gives back the pieces |
| `Text.CutFirst` | server/server.go:226 | cutting at the first occurrence of a character gives the text before it, which is free of it, and the text after it; there is no cut exactly when the character is absent |
| `Text.Upper` | server/server.go:227 | upper-casing keeps the length, leaves no lower-case letter, keeps every other character, and turns each lower-case letter into the capital at the same place in the alphabet |
| `Text.UpperIdempotent` | server/server.go:227 | upper-casing an upper-cased text changes nothing |
| `Text.IntToString` | server/server.go:315 | the decimal text of an integer reads back as that integer, with a minus sign exactly for negatives and no leading zero (only 0 itself starts with the digit 0) |
| `Quotes.QuoteMap` | server/server.go:294-308 | the map's keys are exactly the non-placeholder symbols of the rows, and `X.Y.Z` is never a key. Each symbol maps to the price of its last row, 0 for an empty price. The flag is raised exactly when some non-placeholder row has an empty price |
| `Quotes.LastRowFacts` | server/server.go:298-305 | one more row adds its symbol, unless it is the placeholder, and it raises the flag exactly when it has an empty price |
| `Quotes.QuoteMapOfDistinct` | server/server.go:302-304 | with one row per symbol, every real symbol maps to its own row's price |
| `Quotes.CheckQuoteRequest` | server/server.go:161-176 | the held symbols in order; a single holding is followed by `X.Y.Z`, so at least two symbols are requested |
| `Quotes.PaddingIsNeverPriced` | server/server.go:299-304 | the padding symbol of a one-holding check never gets a price, whatever the provider answers |
| `Allocator.Trunc` | server/server.go:285 | the integer part of x toward zero: within one below x for positive x and within one above x for negative x |
| `Allocator.FMod` | server/server.go:289 | the remainder is in [0, y) for non-negative x and in (-y, 0] for negative x |
| `Allocator.TruncBounds` | server/server.go:285-289 | the truncated quotient times the divisor lies within one divisor of the dividend, on the dividend's side of zero |
| `Allocator.BuyOne` | server/server.go:284-289 | one holding of the entry's symbol at the quoted price; shares times price plus the remainder is the entry's cash; for non-negative cash the shares are the floor of cash over price, and the shares' cost is at most the cash and less than one more share |
| `Allocator.DropPlaceholderSplitsCash` | server/server.go:276-282 | the walked entries are a prefix of the parsed ones, never empty when those are not, and their cash plus the dropped entry's cash is all of it |
| `Allocator.DistinctQuotedFit` | server/server.go:273 | distinct symbols that are all quoted are no more than the quotes, so the result slice sized by the quote map has room for them |
| `Allocator.LeftoversBalance` | server/server.go:283-290 | the cost of the shares bought plus the summed remainders is the entries' total cash |
| `Allocator.Allocate` | server/server.go:272-292 | one slot per quoted symbol. Slot i holds the i-th walked entry's symbol at its quote, with the share and remainder facts of `BuyOne`. Slots past the walked entries are zero. Cost plus unvested is the walked cash |
| `Allocator.PlaceholderContributesNothing` | server/server.go:277-282 | a trailing padding entry changes nothing: the allocation equals that of the single real entry |
| `Allocator.PaddedMatchesExplicitZero` | server/server.go:277-289 | padding buys the same first holding and leaves the same unvested amount as naming a second symbol at 0 percent |
| `Ledger.EmptyIsValid` | server/server.go:99-100 | the start state (counter 0, no trades) satisfies the ledger invariant |
| `Ledger.Put` | server/server.go:312-323 | the counter moves on by one, and the record is stored under the new value, which was unused in a valid ledger. Every other trade is kept, and validity is preserved for a non-empty record |
| `Ledger.Get` | server/server.go:113-114 | the lookup `Transaction.Check` makes: a record is found exactly for a stored identifier, which in a valid ledger means one in 1..lastId, and it is the stored record |
| `Ledger.PutAllIssuesConsecutiveIds` | server/server.go:312-323 | successive recordings get consecutive identifiers after the counter, each record is found under its own, and earlier trades are kept |
| `Ledger.IdsStartAtOne` | server/server.go:99-100 | from server start, the n-th recorded trade has identifier n and is found under it |
| `Valuation.Indicator` | server/server.go:152-156 | "-" exactly below cost, "+" exactly above cost, empty exactly at cost |
| `Valuation.ValueOne` | server/server.go:148-156 | symbol and shares are copied, the current price is the map's (0 when absent), and the marker is "-" exactly below the cost basis, "+" exactly above it and empty exactly at it |
| `Valuation.MarketValueAppend` | server/server.go:151 | adding a position adds its shares times its current price to the total |
| `Valuation.Value` | server/server.go:143-159 | one row per holding in order, each as `ValueOne` states, with the total being the sum of current price times shares |
| `Valuation.MarketValueAtCost` | server/server.go:151 | positions priced at their cost bases are worth what was spent on them |
| `Valuation.ValuationAtCostIsNeutral` | server/server.go:143-159 | valued at the prices paid, no row shows a gain or loss and the total equals the amount invested |
| `Render.StripLast` | server/server.go:317 | cutting the last character leaves what precedes it |
| `Render.TerminatedIsJoin` | server/server.go:314-317 | appending a comma after every segment and cutting the final character equals joining the segments with commas |
| `Render.SplitThree` | server/server.go:315 | three separator-free fields glued with the separator split back into those fields |
| `Render.IntTextIsPlain` | server/server.go:315 | decimal share counts contain neither a comma nor a colon |
| `Render.RenderBuy` | server/server.go:314-317 | the buy summary is the holdings' segments joined by commas |
| `Render.BuySegmentFields` | server/server.go:315 | a buy segment has no comma, and its colon-separated fields are the symbol, the share count and "$" with the formatted cost |
| `Render.BuySummaryReadsBack` | server/server.go:314-317 | when symbols and formatted numbers avoid "," and ":", the summary splits back into one segment per holding, whose fields are symbol, share count and "$" with the cost |
| `Render.RenderCheck` | server/server.go:132-141 | the check summary is the positions' segments joined by commas |
| `Render.CheckSegmentFields` | server/server.go:135 | a check segment has no comma, and its fields are the symbol, the share count and the marker with "$" and the price |
| `Render.CheckSummaryReadsBack` | server/server.go:134-137 | the check summary splits back into one segment per position, whose fields are symbol, share count, and marker with "$" and price |
| `Transaction.RecordTrade` | server/server.go:310-325 | the reply carries the next identifier and the unvested amount. The trade is stored under that identifier, earlier trades are kept and validity is preserved. The summary is the holdings' segments joined by commas |
| `Transaction.Buy` | server/server.go:178-207 | code 1, then code 2, then a missing price, in that order, give identifier 0 with the matching message and leave the ledger unchanged. Otherwise the trade is recorded under the next identifier with at least one holding and its unvested balance, every earlier trade is kept, and validity is preserved |
| `Transaction.BuyRecordsAllocation` | server/server.go:189-195 | a request that parses into some entries and is fully quoted is recorded with exactly the allocation of those entries, which has at least one holding |
| `Transaction.BuyReplyReadsBack` | server/server.go:178-207 | every symbol a buy records is free of "," and ":", and with a formatter that emits neither, the reply's summary splits back into one symbol, share count and "$" cost segment per stored holding |
| `Transaction.BuyConservesBudget` | server/server.go:189-195 | in a recorded buy, the cost of the shares plus the unvested balance is the budget, less the cash of a skipped `X.Y.Z` entry |
| `Transaction.SingleSymbolBuyConservesBudget` | server/server.go:211-215 | a recorded buy of a comma-free request accounts for the whole budget |
| `Transaction.Check` | server/server.go:107-130 | an unknown identifier gives the all-zero reply. A known one reports its stored unvested balance, and a market value and summary taken from the valuation of its holdings at the quotes for the check request |
| `Transaction.CheckReplyReadsBack` | server/server.go:107-141 | for a stored trade whose symbols are free of "," and ":", and a formatter that emits neither, the check summary splits back into one segment per holding: its symbol, share count, and its marker with "$" and current price |
| `Transaction.CheckOutsideIssuedIds` | server/server.go:112-123 | in a valid ledger, an identifier outside 1..lastId gives the all-zero reply |
| `Transaction.CheckAtCost` | server/server.go:113-121 | when every holding is quoted at its cost basis, the reported market value is the amount invested |
| `Transaction.BuyThenCheckAtCost` | server/server.go:184-195 | buying and then checking at unchanged prices: the market value plus the unvested amount is the budget less any skipped entry's cash |
| `SingleSymbolBuy.TwoTokensTotal` | server/server.go:230 | two good tokens are not malformed, and their percentages add |
| `SingleSymbolBuy.WholeBudgetParses` | server/server.go:210-238 | `"TICKER:100%"` parses with code 0 into the whole budget for the upper-cased ticker, followed by the padding entry |
| `SingleSymbolBuy.WholeThenZero` | server/server.go:217-237 | a 100-percent token followed by a 0-percent one gives code 0, the whole budget to the first ticker and nothing to the second |
| `SingleSymbolBuy.PaddedWholeParses` | server/server.go:210-238 | a padded request whose one token takes 100 percent parses into the whole budget for its ticker and the padding entry |
| `SingleSymbolBuy.SingleEntryAllocates` | server/server.go:272-292 | the padded single entry buys the truncated quotient of budget over price, and the `math.Mod` remainder is unvested |
| `SingleSymbolBuy.SingleQuoteTable` | server/server.go:294-308 | one priced row gives a one-entry map and no missing flag |
| `SingleSymbolBuy.RecordFirstTrade` | server/server.go:310-325 | the first trade recorded from server start gets identifier 1 and is the only trade stored |
| `SingleSymbolBuy.FirstBuyOfParsedEntry` | server/server.go:184-195 | one real entry plus padding, quoted at a positive price, is recorded from server start as trade 1 with whole shares and the remainder unvested |
| `SingleSymbolBuy.FirstBuyOfOneSymbol` | server/server.go:178-207 | from server start, `"ticker:100%"` quoted at a positive price is trade 1. It holds the truncated quotient of budget over price at that price, with the `math.Mod` remainder unvested, and the reply is that one holding's segment |

## Left out

- JSON decoding of requests and replies, the RPC listener and `main`, logging, and `client/client.go`. `Buy` and `Check` take and return the decoded values.
- `buildURL` and `urlToJSONStruct`: the HTTP request to the quote service and its JSON decoding. These are the `provider` parameter, which maps the requested symbols to decoded quote rows.
- Concurrency: the source updates its globals without locking. The model is sequential.
- Floating-point rounding. Money is exact `real`, so `totpercent != 100`, the products and `math.Mod` are exact. `strconv.FormatFloat` is the `fmt` parameter.
- int64 overflow of the trade counter and of `int(x / price)`. Both are unbounded integers here.
- `AllocationParser.Lex`: matches the whole token against the grammar `ticker ':' digits ('.' digits*)? '%'`, where the ticker has at least one word character. The source's pattern is unanchored, and it is applied with `MatchString`. So it also accepts a token that merely contains a match. For such a token the source splits at every colon, reads `strconv.ParseFloat` of the second field less its last character, and ignores the error. The common case is a space after a comma: in `"GOOG:50%, YHOO:50%"` the second token `" YHOO:50%"` is read as symbol `" YHOO"` at 50 percent, so the source answers code 0. The model rejects that token and answers code 1. Likewise `"x AAPL:5%"` is read as symbol `"X AAPL"` at 5 percent. `"A:5%junk"` reads `"5%jun"` and `"x:A:5%"` reads `""`, so both count 0 percent. The model gives every such token no percentage and classifies it as malformed. A matched token whose second field is empty, such as `"A::B:5%"`, makes the source evaluate `temp[1][:len(temp[1])-1]` on an empty string: the slice panics inside the RPC handler, nothing recovers it, and the server process ends. The model classifies that token as malformed too. On a token of the form `ticker:number%`, model and source agree: the pattern then matches exactly when the ticker has a word character, which gives the word boundary the pattern starts with.
- `Transaction.Buy`: requires that a request that gets past parsing and quoting names distinct symbols with positive quotes (`Transaction.Tradable`). Each excluded case ends in a panic in the handler that nothing recovers, so the server process stops:
  - With a repeated symbol, or a walked symbol for which the provider returns no row, the quote map has fewer keys than there are walked entries. The result slice is sized by the quote map (server/server.go:273), so the loop writes past its end and panics (server/server.go:283-285).
  - With a zero price, `x.value / stockValue` is an infinity, or NaN for zero cash. Go's `int()` of that value is implementation-dependent. `math.Mod` by zero is NaN, so the unvested amount is NaN. The trade is still counted and stored (server/server.go:312, 323), and then `json.Marshal` rejects the NaN and the handler panics (server/server.go:200-202).
  - A missing row gives a price of 0 only when the provider also returns a row nobody asked for, so that the map is large enough. That case then behaves like a zero price.
- `Transaction.Check`: requires a stored trade to hold at least one holding (always so in a `Ledger.Valid` ledger). On an empty one the source's summary builder panics.
- `Render.RenderBuy` and `Render.RenderCheck` require at least one segment, because the source's `s[:len(s)-1]` panics on an empty string.
- `Render.BuySummaryReadsBack` and `Render.CheckSummaryReadsBack` assume that symbols, markers and formatted numbers contain neither "," nor ":". For a buy the symbol part always holds: every recorded symbol is an upper-cased ticker or an empty slot (`Transaction.BuyReplyReadsBack`), and a marker is always "-", "+" or empty (`Transaction.CheckReplyReadsBack`). What stays an assumption is `Render.PlainFormat` on the `fmt` parameter, which `strconv.FormatFloat` with format `'f'` meets because it writes only a sign, digits and a decimal point.
- An empty price from the provider is stored as 0 (`Quotes.PriceOf`). This matches the ignored `ParseFloat` error. Other unparsable prices are outside the model, because the provider's rows already carry numbers.

=== FILE: allocation_parser.dfy ===
/** The allocation parser (buyRequestToBuyStock, server/server.go:210-238):
    turns "SYM:PCT%,SYM:PCT%,..." and a budget into per-ticker cash amounts
    and an error code (0 ok, 1 percentages do not sum to 100, 2 bad token). */
module AllocationParser {
  import opened Types
  import opened Text

  const CodeOk := 0
  const CodeSumMismatch := 1
  const CodeBadFormat := 2

  /** The token appended to a request without a comma. */
  const PlaceholderToken: string := Placeholder + ":0%"

  /** A lexed "TICKER:WHOLE[.FRAC]%" token. `frac` is Some("") for "12.%",
      which the server's pattern admits. */
  datatype Token = Token(ticker: string, whole: string, frac: Option<string>)

  /** A word character of the pattern's `\w`: an ASCII letter, digit or underscore. */
  predicate IsWordChar(c: char)
  {
    'a' <= c <= 'z' || 'A' <= c <= 'Z' || IsDigit(c) || c == '_'
  }

  /** A ticker character: a word character or a dot. */
  predicate IsTickerChar(c: char)
  {
    IsWordChar(c) || c == '.'
  }

  /** A ticker of the pattern `\b(\w|\.|\d)+`: ticker characters only, with
      at least one word character, since the word boundary the pattern starts
      with sits before the first word character that follows the start or a
      dot; a ticker of dots alone has no word boundary and does not match. */
  predicate IsTicker(s: string)
  {
    && |s| > 0
    && (forall i :: 0 <= i < |s| ==> IsTickerChar(s[i]))
    && (exists i :: 0 <= i < |s| && IsWordChar(s[i]))
  }

  predicate ValidToken(t: Token)
  {
    && IsTicker(t.ticker)
    && |t.whole| > 0 && AllDigits(t.whole)
    && (t.frac.Some? ==> AllDigits(t.frac.value))
  }

  function NumberText(t: Token): string
  {
    t.whole + (if t.frac.Some? then "." + t.frac.value else "")
  }

  /** The text of a token, as a client writes it. */
  function TokenText(t: Token): string
  {
    t.ticker + ":" + NumberText(t) + "%"
  }

  /** The outcome of lexing one token: a valid token, or None for a malformed one. */
  type Lexeme = o: Option<Token> | o.Some? ==> ValidToken(o.value) witness None

  /** The number text cut at its first dot: the whole part, and the
      fractional part when there is a dot. */
  function NumberPieces(n: string): (r: (string, Option<string>))
    ensures n == r.0 + (if r.1.Some? then "." + r.1.value else "")
  {
    match CutFirst(n, '.')
    case None => (n, None)
    case Some(num) => (num.0, Some(num.1))
  }

  /** A token's text cut into its parts, before the parts are checked:
      the text before the first ':' and the number between it and the
      closing '%'. */
  function Pieces(s: string): (r: Option<Token>)
    ensures r.Some? ==> TokenText(r.value) == s
  {
    if |s| == 0 || s[|s| - 1] != '%' then None
    else
      match CutFirst(s[..|s| - 1], ':')
      case None => None
      case Some(parts) =>
        var num := NumberPieces(parts.1);
        var t := Token(parts.0, num.0, num.1);
        assert NumberText(t) == parts.1;
        assert s == s[..|s| - 1] + "%";
        Some(t)
  }

  /** Recognises one token of the grammar ticker ':' digits ('.' digits*)? '%'. */
  function Lex(s: string): (l: Lexeme)
    ensures l.Some? ==> TokenText(l.value) == s
  {
    var p := Pieces(s);
    if p.Some? && ValidToken(p.value) then p else None
  }

  /** A text lexes to a token exactly when the token is valid and the text is
      that token written out. */
  lemma LexExactly(s: string, t: Token)
    ensures Lex(s) == Some(t) <==> ValidToken(t) && TokenText(t) == s
  {
    if ValidToken(t) && TokenText(t) == s {
      LexComplete(t);
    }
  }

  /** Every valid token is recognised from its text. */
  lemma LexComplete(t: Token)
    requires ValidToken(t)
    ensures Lex(TokenText(t)) == Some(t)
  {
    var s := TokenText(t);
    var num := NumberText(t);
    assert s == t.ticker + [':'] + num + "%";
    assert s[..|s| - 1] == t.ticker + [':'] + num;
    assert ':' !in t.ticker by {
      assert forall i :: 0 <= i < |t.ticker| ==> IsTickerChar(t.ticker[i]);
    }
    CutFirstAt(t.ticker, ':', num);
    assert '.' !in t.whole by {
      assert forall i :: 0 <= i < |t.whole| ==> IsDigit(t.whole[i]);
    }
    if t.frac.Some? {
      assert num == t.whole + ['.'] + t.frac.value;
      CutFirstAt(t.whole, '.', t.frac.value);
    } else {
      assert num == t.whole;
    }
  }

  /** A token whose ticker part is made of dots alone is rejected: the
      pattern's word boundary finds no place to start. */
  lemma DotTickerRejected(d: string, num: string)
    requires forall i :: 0 <= i < |d| ==> d[i] == '.'
    ensures Lex(d + ":" + num + "%") == None
  {
    assert forall i :: 0 <= i < |d| ==> !IsWordChar(d[i]);
    LexTicker(d, num);
  }

  /** A token that starts with a space, as the token after ", " does, is
      rejected: a ticker is never empty and holds no space. */
  lemma LeadingSpaceRejected(s: string)
    requires |s| > 0 && s[0] == ' '
    ensures Lex(s) == None
  {
  }

  /** A recognised "ticker:number%" text has exactly the text before its
      colon as ticker. */
  lemma LexTicker(d: string, num: string)
    requires ':' !in d
    ensures Lex(d + ":" + num + "%").Some? ==> Lex(d + ":" + num + "%").value.ticker == d
  {
    var s := d + ":" + num + "%";
    if Lex(s).Some? {
      var t := Lex(s).value;
      assert ':' !in t.ticker by {
        assert forall i :: 0 <= i < |t.ticker| ==> IsTickerChar(t.ticker[i]);
      }
      assert s == d + [':'] + (num + "%");
      assert s == t.ticker + [':'] + (NumberText(t) + "%");
      CutFirstAt(d, ':', num + "%");
      CutFirstAt(t.ticker, ':', NumberText(t) + "%");
    }
  }

  /** The percentage a valid token denotes. */
  function Percent(t: Token): (p: real)
    requires ValidToken(t)
    ensures p >= 0.0
  {
    DigitsValue(t.whole) as real
      + (if t.frac.Some? then DigitsValue(t.frac.value) as real / Pow10(|t.frac.value|) as real else 0.0)
  }

  /** The percentage is the decimal number the token spells, as
      strconv.ParseFloat reads it: the whole part alone, or the whole and
      fractional digits read together as one integer and divided by ten to
      the fraction's length. */
  lemma PercentValue(t: Token)
    requires ValidToken(t)
    ensures t.frac.None? ==> Percent(t) == DigitsValue(t.whole) as real
    ensures t.frac.Some? ==>
      && AllDigits(t.whole + t.frac.value)
      && Percent(t) == DigitsValue(t.whole + t.frac.value) as real / Pow10(|t.frac.value|) as real
  {
    if t.frac.Some? {
      var f := t.frac.value;
      var w, v, p := DigitsValue(t.whole), DigitsValue(f), Pow10(|f|);
      DigitsAppend(t.whole, f);
      var pct := Percent(t);
      assert pct == w as real + v as real / p as real;
      ScaleFraction(w, v, p);
      assert DigitsValue(t.whole + f) == w * p + v;
    }
  }

  lemma ScaleFraction(w: int, v: int, p: int)
    requires p > 0
    ensures w as real + v as real / p as real == (w * p + v) as real / p as real
  {
  }

  /** The cash a percentage of the budget stands for, computed as the server
      does: pct × 0.01 × budget. */
  function Share(pct: real, budget: real): real
  {
    pct * 0.01 * budget
  }

  lemma ShareAdds(p: real, q: real, budget: real)
    ensures Share(p, budget) + Share(q, budget) == Share(p + q, budget)
  {
  }

  lemma ShareOfZero(budget: real)
    ensures Share(0.0, budget) == 0.0
  {
  }

  lemma ShareOfHundred(budget: real)
    ensures Share(100.0, budget) == budget
  {
  }

  /** The request with a placeholder entry appended when it has no comma. */
  function Pad(spec: string): string
  {
    if ',' in spec then spec else spec + "," + PlaceholderToken
  }

  /** The tokens the parser looks at. */
  function Tokens(spec: string): seq<string>
  {
    Split(Pad(spec), ',')
  }

  /** Each token lexed. */
  function Lexed(tokens: seq<string>): (ls: seq<Lexeme>)
    ensures |ls| == |tokens|
    ensures forall i :: 0 <= i < |tokens| ==> ls[i] == Lex(tokens[i])
  {
    seq(|tokens|, i requires 0 <= i < |tokens| => Lex(tokens[i]))
  }

  predicate Malformed(ls: seq<Lexeme>)
  {
    exists i :: 0 <= i < |ls| && ls[i].None?
  }

  /** The percentage a token contributes to the total: 0 for a malformed one. */
  function PercentOf(l: Lexeme): real
  {
    match l
    case None => 0.0
    case Some(t) => Percent(t)
  }

  /** The summed percentages of the well-formed tokens. */
  function TotalPercent(ls: seq<Lexeme>): real
  {
    if |ls| == 0 then 0.0 else PercentOf(ls[0]) + TotalPercent(ls[1..])
  }

  lemma {:induction false} TotalPercentAppend(ls: seq<Lexeme>, l: Lexeme)
    ensures TotalPercent(ls + [l]) == TotalPercent(ls) + PercentOf(l)
    decreases |ls|
  {
    if |ls| == 0 {
      assert ls + [l] == [l];
    } else {
      assert (ls + [l])[1..] == ls[1..] + [l];
      TotalPercentAppend(ls[1..], l);
    }
  }

  /** The entry a token yields: the upper-cased ticker and its share of the
      budget for a well-formed token, the zero entry for a malformed one. */
  function EntryOf(l: Lexeme, budget: real): BuyStock
  {
    match l
    case None => BuyStock("", 0.0)
    case Some(t) => BuyStock(Upper(t.ticker), Share(Percent(t), budget))
  }

  /** The state of the parser's loop: entries so far, running percentage
      total, and the error code set by a malformed token. */
  datatype ScanState = ScanState(entries: seq<BuyStock>, total: real, err: int)

  /** The parser's loop over the tokens, one token at a time in order. */
  function Scan(ls: seq<Lexeme>, budget: real): (st: ScanState)
    ensures |st.entries| == |ls|
    ensures forall i :: 0 <= i < |ls| ==> st.entries[i] == EntryOf(ls[i], budget)
    ensures st.total == TotalPercent(ls)
    ensures st.err == (if Malformed(ls) then CodeBadFormat else CodeOk)
    decreases |ls|
  {
    if |ls| == 0 then ScanState([], 0.0, CodeOk)
    else
      var front := ls[..|ls| - 1];
      var l := ls[|ls| - 1];
      var prev := Scan(front, budget);
      assert front + [l] == ls;
      TotalPercentAppend(front, l);
      assert Malformed(ls) <==> Malformed(front) || l.None? by {
        if Malformed(front) {
          var i :| 0 <= i < |front| && front[i].None?;
          assert ls[i] == front[i];
        }
      }
      match l
      case None =>
        ScanState(prev.entries + [BuyStock("", 0.0)], prev.total, CodeBadFormat)
      case Some(t) =>
        ScanState(prev.entries + [BuyStock(Upper(t.ticker), Share(Percent(t), budget))],
                  prev.total + Percent(t), prev.err)
  }

  datatype Parsed = Parsed(entries: seq<BuyStock>, code: int)

  /** buyRequestToBuyStock: the loop's entries, with the error code of a
      malformed token overridden by 1 whenever the total is not exactly 100. */
  function ParseBuyRequest(spec: string, budget: real): (r: Parsed)
    ensures |r.entries| == |Tokens(spec)| >= 2
    ensures forall i :: 0 <= i < |r.entries| ==> r.entries[i] == EntryOf(Lex(Tokens(spec)[i]), budget)
    ensures r.code == CodeSumMismatch <==> TotalPercent(Lexed(Tokens(spec))) != 100.0
    ensures r.code == CodeBadFormat
        <==> TotalPercent(Lexed(Tokens(spec))) == 100.0 && Malformed(Lexed(Tokens(spec)))
    ensures r.code == CodeOk
        <==> TotalPercent(Lexed(Tokens(spec))) == 100.0 && !Malformed(Lexed(Tokens(spec)))
  {
    TokensAtLeastTwo(spec);
    Decide(Lexed(Tokens(spec)), budget)
  }

  /** The parser's verdict on a list of lexed tokens: the sum check is made
      after the loop and takes precedence over the format error. */
  function Decide(ls: seq<Lexeme>, budget: real): (r: Parsed)
    ensures |r.entries| == |ls|
    ensures forall i :: 0 <= i < |ls| ==> r.entries[i] == EntryOf(ls[i], budget)
    ensures r.code == CodeSumMismatch <==> TotalPercent(ls) != 100.0
    ensures r.code == CodeBadFormat <==> TotalPercent(ls) == 100.0 && Malformed(ls)
    ensures r.code == CodeOk <==> TotalPercent(ls) == 100.0 && !Malformed(ls)
  {
    var st := Scan(ls, budget);
    Parsed(st.entries, if st.total != 100.0 then CodeSumMismatch else st.err)
  }

  /** Padding leaves at least two tokens: a comma-free request gains one. */
  lemma TokensAtLeastTwo(spec: string)
    ensures |Tokens(spec)| >= 2
  {
    if ',' !in spec {
      assert Pad(spec)[|spec|] == ',';
    }
  }

  /** The placeholder token is well formed and worth nothing. */
  lemma PlaceholderTokenLexes()
    ensures Lex(PlaceholderToken) == Some(Token(Placeholder, "0", None))
    ensures PercentOf(Lex(PlaceholderToken)) == 0.0
    ensures Upper(Placeholder) == Placeholder
  {
    var t := Token(Placeholder, "0", None);
    assert IsTicker(Placeholder) by {
      assert forall i :: 0 <= i < |Placeholder| ==> IsTickerChar(Placeholder[i]);
      assert IsWordChar(Placeholder[0]);
    }
    assert TokenText(t) == PlaceholderToken;
    LexComplete(t);
    assert DigitsValue("0") == 0 by {
      assert "0"[..0] == "";
    }
  }

  /** A request without a comma is padded into exactly two entries, the second
      being the placeholder with no cash, and the total is unchanged. */
  lemma ParsePadsSingleToken(spec: string, budget: real)
    requires ',' !in spec
    ensures Tokens(spec) == [spec, PlaceholderToken]
    ensures |ParseBuyRequest(spec, budget).entries| == 2
    ensures ParseBuyRequest(spec, budget).entries[1] == BuyStock(Placeholder, 0.0)
    ensures TotalPercent(Lexed(Tokens(spec))) == TotalPercent(Lexed(Split(spec, ',')))
  {
    SingleTokenSplits(spec);
    PaddedEntries(spec, budget);
    PaddedTotal(spec);
  }

  lemma PaddedEntries(spec: string, budget: real)
    requires ',' !in spec
    ensures |ParseBuyRequest(spec, budget).entries| == 2
    ensures ParseBuyRequest(spec, budget).entries[1] == BuyStock(Placeholder, 0.0)
  {
    SingleTokenSplits(spec);
    PlaceholderTokenLexes();
    ShareOfZero(budget);
  }

  lemma PaddedTotal(spec: string)
    requires ',' !in spec
    ensures TotalPercent(Lexed(Tokens(spec))) == TotalPercent(Lexed(Split(spec, ',')))
  {
    SingleTokenSplits(spec);
    assert Lexed(Tokens(spec)) == [Lex(spec), Lex(PlaceholderToken)];
    assert Lexed(Split(spec, ',')) == [Lex(spec)];
    PlaceholderAddsNothing(Lex(spec));
  }

  lemma SingleTokenSplits(spec: string)
    requires ',' !in spec
    ensures Tokens(spec) == [spec, PlaceholderToken]
    ensures Split(spec, ',') == [spec]
  {
    SplitAfterPrefix(spec, ',', PlaceholderToken);
    assert Pad(spec) == spec + [','] + PlaceholderToken;
    PlaceholderTokenHasNoComma();
    SplitWithoutSep(PlaceholderToken, ',');
    SplitWithoutSep(spec, ',');
  }

  lemma PlaceholderTokenHasNoComma()
    ensures ',' !in PlaceholderToken
  {
    assert forall i :: 0 <= i < |PlaceholderToken| ==> PlaceholderToken[i] != ',';
  }

  lemma PlaceholderAddsNothing(l: Lexeme)
    ensures TotalPercent([l, Lex(PlaceholderToken)]) == TotalPercent([l])
  {
    PlaceholderTokenLexes();
    assert [l, Lex(PlaceholderToken)][1..] == [Lex(PlaceholderToken)];
    assert [Lex(PlaceholderToken)][1..] == [];
    assert [l][1..] == [];
  }

  lemma {:induction false} EntriesSum(es: seq<BuyStock>, ls: seq<Lexeme>, budget: real)
    requires |es| == |ls|
    requires forall i :: 0 <= i < |es| ==> es[i] == EntryOf(ls[i], budget)
    ensures SumValues(es) == Share(TotalPercent(ls), budget)
    decreases |es|
  {
    if |es| == 0 {
      ShareOfZero(budget);
    } else {
      EntriesSum(es[1..], ls[1..], budget);
      if ls[0].None? {
        ShareOfZero(budget);
      }
      assert es[0].value == Share(PercentOf(ls[0]), budget);
      ShareAdds(PercentOf(ls[0]), TotalPercent(ls[1..]), budget);
    }
  }

  /** On success the entries divide exactly the whole budget. */
  lemma ParseOkSpendsBudget(spec: string, budget: real)
    requires ParseBuyRequest(spec, budget).code == CodeOk
    ensures SumValues(ParseBuyRequest(spec, budget).entries) == budget
  {
    var r := ParseBuyRequest(spec, budget);
    EntriesSum(r.entries, Lexed(Tokens(spec)), budget);
    ShareOfHundred(budget);
  }

  /** On success every token is well formed and its entry carries the
      upper-cased ticker and that percentage of the budget. */
  lemma ParseOkEntries(spec: string, budget: real, i: int)
    requires ParseBuyRequest(spec, budget).code == CodeOk
    requires 0 <= i < |Tokens(spec)|
    ensures Lex(Tokens(spec)[i]).Some?
    ensures ParseBuyRequest(spec, budget).entries[i]
         == BuyStock(Upper(Lex(Tokens(spec)[i]).value.ticker), Share(Percent(Lex(Tokens(spec)[i]).value), budget))
    ensures |ParseBuyRequest(spec, budget).entries[i].symbol| > 0
  {
    assert Lexed(Tokens(spec))[i] == Lex(Tokens(spec)[i]);
  }

  /** An upper-cased ticker holds neither ',' nor ':': upper-casing changes
      only lower-case letters, and a ticker is made of word characters and
      dots. */
  lemma UpperTickerHasNoSeparator(ticker: string)
    requires IsTicker(ticker)
    ensures ',' !in Upper(ticker) && ':' !in Upper(ticker)
  {
    var u := Upper(ticker);
    forall i | 0 <= i < |u|
      ensures u[i] != ',' && u[i] != ':'
    {
      assert IsTickerChar(ticker[i]);
    }
  }

  /** Every symbol of an accepted request is free of the separators the
      summaries use: it is an upper-cased ticker. */
  lemma ParsedSymbolsHaveNoSeparator(spec: string, budget: real)
    requires ParseBuyRequest(spec, budget).code == CodeOk
    ensures var es := ParseBuyRequest(spec, budget).entries;
      forall i :: 0 <= i < |es| ==> ',' !in es[i].symbol && ':' !in es[i].symbol
  {
    var es := ParseBuyRequest(spec, budget).entries;
    forall i | 0 <= i < |es|
      ensures ',' !in es[i].symbol && ':' !in es[i].symbol
    {
      ParseOkEntries(spec, budget, i);
      var t := Lex(Tokens(spec)[i]).value;
      LexExactly(Tokens(spec)[i], t);
      UpperTickerHasNoSeparator(t.ticker);
    }
  }
}

=== FILE: allocator.dfy ===
/** The allocator (stockBuyer, server/server.go:272-292): each allocation
    buys as many whole shares as its cash covers at the quoted price, and the
    cash that is left over is summed into the unvested amount. */
module Allocator {
  import opened Types

  /** Go's int(x) conversion of a float: the integer part, toward zero. */
  function Trunc(x: real): (n: int)
    ensures x >= 0.0 ==> n as real <= x < n as real + 1.0
    ensures x < 0.0 ==> n as real - 1.0 < x <= n as real
  {
    if x >= 0.0 then x.Floor else -((-x).Floor)
  }

  /** Go's math.Mod(x, y) for y > 0: x minus the truncated quotient times y.
      Its magnitude is below y and its sign is the sign of x. */
  function FMod(x: real, y: real): (r: real)
    requires y > 0.0
    ensures x >= 0.0 ==> 0.0 <= r < y
    ensures x < 0.0 ==> -y < r <= 0.0
  {
    TruncBounds(x, y);
    x - Times(Trunc(x / y) as real, y)
  }

  /** Real multiplication, kept behind a name so that the solver treats the
      products in the bounds below as opaque terms. */
  function Times(a: real, b: real): real
  {
    a * b
  }

  /** The truncated quotient times the divisor brackets the dividend. */
  lemma TruncBounds(x: real, y: real)
    requires y > 0.0
    ensures x >= 0.0 ==> Times(Trunc(x / y) as real, y) <= x < Times(Trunc(x / y) as real, y) + y
    ensures x < 0.0 ==> Times(Trunc(x / y) as real, y) - y < x <= Times(Trunc(x / y) as real, y)
  {
    var q := x / y;
    QuotientTimesDivisor(x, y);
    if x >= 0.0 {
      Bracket(Trunc(q) as real, q, y);
    } else {
      Bracket(Trunc(q) as real - 1.0, q, y);
      Shift(Trunc(q) as real, y);
    }
  }

  lemma QuotientTimesDivisor(x: real, y: real)
    requires y > 0.0
    ensures Times(x / y, y) == x
    ensures x >= 0.0 <==> x / y >= 0.0
  {
  }

  lemma Bracket(n: real, q: real, y: real)
    requires y > 0.0 && n <= q <= n + 1.0
    ensures Times(n, y) <= Times(q, y) <= Times(n, y) + y
    ensures n < q ==> Times(n, y) < Times(q, y)
    ensures q < n + 1.0 ==> Times(q, y) < Times(n, y) + y
  {
    TimesLe(n, q, y);
    TimesLe(q, n + 1.0, y);
    if n < q {
      TimesLt(n, q, y);
    }
    if q < n + 1.0 {
      TimesLt(q, n + 1.0, y);
    }
    Shift(n + 1.0, y);
  }

  lemma TimesLe(a: real, b: real, y: real)
    requires y > 0.0 && a <= b
    ensures Times(a, y) <= Times(b, y)
  {
  }

  lemma TimesLt(a: real, b: real, y: real)
    requires y > 0.0 && a < b
    ensures Times(a, y) < Times(b, y)
  {
  }

  lemma Shift(n: real, y: real)
    ensures Times(n - 1.0, y) == Times(n, y) - y
  {
  }

  /** One iteration of the allocation loop: whole shares at `price`, with
      the price recorded as the cost basis. */
  function BuyOne(b: BuyStock, price: real): (h: Holding)
    requires price > 0.0
    ensures h.symbol == b.symbol && h.cost == price
    ensures Spent(h) + FMod(b.value, price) == b.value
    ensures b.value >= 0.0 ==> h.shares == (b.value / price).Floor
    ensures b.value >= 0.0 ==> 0 <= h.shares && Spent(h) <= b.value < Spent(h) + price
  {
    TruncBounds(b.value, price);
    Holding(b.symbol, Trunc(b.value / price), price)
  }

  /** The entries the loop walks: a two-entry list ending in the placeholder
      loses the placeholder. */
  function DropPlaceholder(bs: seq<BuyStock>): seq<BuyStock>
  {
    if |bs| == 2 && bs[1].symbol == Placeholder then [bs[0]] else bs
  }

  /** The cash of the entry the loop skips, if it skips one. */
  function Dropped(bs: seq<BuyStock>): real
  {
    if |bs| == 2 && bs[1].symbol == Placeholder then bs[1].value else 0.0
  }

  /** The cash of the walked entries and of the skipped one add up to all of it. */
  lemma DropPlaceholderSplitsCash(bs: seq<BuyStock>)
    ensures SumValues(DropPlaceholder(bs)) + Dropped(bs) == SumValues(bs)
    ensures |bs| >= 1 ==> |DropPlaceholder(bs)| >= 1
    ensures forall i :: 0 <= i < |DropPlaceholder(bs)| ==> DropPlaceholder(bs)[i] == bs[i]
  {
    if |bs| == 2 && bs[1].symbol == Placeholder {
      assert bs[1..][1..] == [];
    }
  }

  /** Every entry's symbol has a positive quote. */
  predicate Quoted(bs: seq<BuyStock>, m: map<string, real>)
  {
    forall i :: 0 <= i < |bs| ==> bs[i].symbol in m && m[bs[i].symbol] > 0.0
  }

  predicate DistinctSymbols(bs: seq<BuyStock>)
  {
    forall i, j :: 0 <= i < j < |bs| ==> bs[i].symbol != bs[j].symbol
  }

  /** Distinct quoted symbols are at most as many as the quotes, so the
      result slice sized by the quote map has room for each of them. */
  lemma {:induction false} DistinctQuotedFit(bs: seq<BuyStock>, keys: set<string>)
    requires DistinctSymbols(bs)
    requires forall i :: 0 <= i < |bs| ==> bs[i].symbol in keys
    ensures |bs| <= |keys|
    decreases |bs|
  {
    if |bs| > 0 {
      var rest := keys - {bs[0].symbol};
      forall i | 0 <= i < |bs| - 1
        ensures bs[1..][i].symbol in rest
      {
        assert bs[1..][i] == bs[i + 1];
      }
      DistinctQuotedFit(bs[1..], rest);
    }
  }

  /** The holdings bought for each entry, in order. */
  function Bought(bs: seq<BuyStock>, m: map<string, real>): (hs: seq<Holding>)
    requires Quoted(bs, m)
    ensures |hs| == |bs|
    ensures forall i :: 0 <= i < |bs| ==> hs[i] == BuyOne(bs[i], m[bs[i].symbol])
  {
    seq(|bs|, i requires 0 <= i < |bs| && Quoted(bs, m) => BuyOne(bs[i], m[bs[i].symbol]))
  }

  /** The loop's running sum of per-entry remainders, in entry order. */
  function Leftovers(bs: seq<BuyStock>, m: map<string, real>): real
    requires Quoted(bs, m)
    decreases |bs|
  {
    if |bs| == 0 then 0.0
    else
      var last := bs[|bs| - 1];
      Leftovers(bs[..|bs| - 1], m) + FMod(last.value, m[last.symbol])
  }

  lemma {:induction false} SumValuesAppend(bs: seq<BuyStock>, b: BuyStock)
    ensures SumValues(bs + [b]) == SumValues(bs) + b.value
    decreases |bs|
  {
    if |bs| == 0 {
      assert bs + [b] == [b];
    } else {
      assert (bs + [b])[1..] == bs[1..] + [b];
      SumValuesAppend(bs[1..], b);
    }
  }

  /** What is not spent on whole shares is exactly the sum of the remainders. */
  lemma {:induction false} LeftoversBalance(bs: seq<BuyStock>, m: map<string, real>)
    requires Quoted(bs, m)
    ensures Invested(Bought(bs, m)) + Leftovers(bs, m) == SumValues(bs)
    decreases |bs|
  {
    if |bs| > 0 {
      var front := bs[..|bs| - 1];
      var last := bs[|bs| - 1];
      assert Quoted(front, m);
      LeftoversBalance(front, m);
      assert front + [last] == bs;
      assert Bought(bs, m) == Bought(front, m) + [BuyOne(last, m[last.symbol])];
      InvestedAppend(Bought(front, m), BuyOne(last, m[last.symbol]));
      SumValuesAppend(front, last);
    }
  }

  /** What stockBuyer returns: the holdings slice and the unvested amount. */
  datatype Allocation = Allocation(holdings: seq<Holding>, unvested: real)

  /** stockBuyer. The result slice has one slot per quoted symbol; the loop
      fills the first slots, one per entry, and the rest keep the zero value. */
  function Allocate(bs: seq<BuyStock>, m: map<string, real>): (a: Allocation)
    requires Quoted(DropPlaceholder(bs), m)
    requires |DropPlaceholder(bs)| <= |m|
    ensures |a.holdings| == |m|
    ensures var w := DropPlaceholder(bs);
      forall i :: 0 <= i < |w| ==>
        && a.holdings[i].symbol == w[i].symbol
        && a.holdings[i].cost == m[w[i].symbol]
        && Spent(a.holdings[i]) + FMod(w[i].value, m[w[i].symbol]) == w[i].value
    ensures var w := DropPlaceholder(bs);
      forall i :: 0 <= i < |w| && w[i].value >= 0.0 ==>
        && a.holdings[i].shares == (w[i].value / m[w[i].symbol]).Floor
        && Spent(a.holdings[i]) <= w[i].value < Spent(a.holdings[i]) + a.holdings[i].cost
    ensures forall i :: |DropPlaceholder(bs)| <= i < |m| ==> a.holdings[i] == Unfilled
    ensures Invested(a.holdings) + a.unvested == SumValues(DropPlaceholder(bs))
  {
    var bought := DropPlaceholder(bs);
    LeftoversBalance(bought, m);
    InvestedOfUnfilled(Bought(bought, m), |m| - |bought|);
    Allocation(Bought(bought, m) + seq(|m| - |bought|, _ => Unfilled), Leftovers(bought, m))
  }

  /** A trailing placeholder entry changes nothing: the allocation is the one
      of the single real entry. */
  lemma PlaceholderContributesNothing(b: BuyStock, m: map<string, real>)
    requires Quoted([b], m) && |m| >= 1
    ensures Allocate([b, BuyStock(Placeholder, 0.0)], m) == Allocate([b], m)
  {
  }

  /** A one-entry plan padded with the placeholder and the same plan with an
      explicit zero-percent second symbol buy the same shares of the first
      symbol and leave the same unvested amount. */
  lemma PaddedMatchesExplicitZero(b: BuyStock, z: BuyStock, m: map<string, real>)
    requires z.symbol != Placeholder && z.value == 0.0
    requires Quoted([b, z], m) && |m| >= 2
    ensures Quoted([b], m)
    ensures Allocate([b, BuyStock(Placeholder, 0.0)], m).holdings[0] == Allocate([b, z], m).holdings[0]
    ensures Allocate([b, BuyStock(Placeholder, 0.0)], m).unvested == Allocate([b, z], m).unvested
  {
    var padded := [b, BuyStock(Placeholder, 0.0)];
    assert DropPlaceholder(padded) == [b];
    assert DropPlaceholder([b, z]) == [b, z];
    assert [b, z][..1] == [b];
    assert [b][..0] == [];
    assert Allocate([b, z], m).unvested == Leftovers([b], m) + FMod(z.value, m[z.symbol]);
    assert FMod(z.value, m[z.symbol]) == 0.0;
  }
}

=== FILE: ledger.dfy ===
/** The trade ledger: the counter `tradeIDStart` and the map `database`
    (server/server.go:99-100). A successful buy takes the next identifier
    and stores its record under it (server/server.go:312-323); a check only
    looks a record up (server/server.go:113-114). */
module Ledger {
  import opened Types

  datatype Ledger = Ledger(lastId: int, trades: map<int, Record>)

  /** The state at server start: counter zero, no trades. */
  const Empty: Ledger := Ledger(0, map[])

  /** The ledger invariant: identifiers 1..lastId are exactly the stored
      ones, and every stored trade holds at least one holding. */
  predicate Valid(l: Ledger)
  {
    && l.lastId >= 0
    && (forall id :: id in l.trades ==> 1 <= id <= l.lastId)
    && (forall id :: 1 <= id <= l.lastId ==> id in l.trades)
    && (forall id :: id in l.trades ==> |l.trades[id].holdings| > 0)
  }

  lemma EmptyIsValid()
    ensures Valid(Empty)
  {
  }

  datatype Stored = Stored(id: int, ledger: Ledger)

  /** Records a trade: the counter moves on by one and the record is stored
      under the new value; every earlier trade stays as it was. */
  function Put(l: Ledger, rec: Record): (s: Stored)
    ensures s.id == l.lastId + 1 && s.ledger.lastId == s.id
    ensures s.ledger.trades.Keys == l.trades.Keys + {s.id}
    ensures s.id in s.ledger.trades && s.ledger.trades[s.id] == rec
    ensures forall id :: id in l.trades && id != s.id ==> s.ledger.trades[id] == l.trades[id]
    ensures Valid(l) ==> s.id !in l.trades
    ensures Valid(l) && |rec.holdings| > 0 ==> Valid(s.ledger)
  {
    var id := l.lastId + 1;
    Stored(id, Ledger(id, l.trades[id := rec]))
  }

  /** The record under `id`, if any. */
  function Get(l: Ledger, id: int): (r: Option<Record>)
    ensures r.Some? <==> id in l.trades
    ensures Valid(l) ==> (r.Some? <==> 1 <= id <= l.lastId)
    ensures r.Some? ==> r.value == l.trades[id]
  {
    if id in l.trades then Some(l.trades[id]) else None
  }

  datatype Batch = Batch(ids: seq<int>, ledger: Ledger)

  /** Records several trades one after another, in order. */
  function PutAll(l: Ledger, recs: seq<Record>): (b: Batch)
    ensures |b.ids| == |recs|
    decreases |recs|
  {
    if |recs| == 0 then Batch([], l)
    else
      var prev := PutAll(l, recs[..|recs| - 1]);
      var s := Put(prev.ledger, recs[|recs| - 1]);
      Batch(prev.ids + [s.id], s.ledger)
  }

  /** Identifiers are handed out consecutively in call order, each record is
      found under its identifier, and the trades already present are kept. */
  lemma {:induction false} PutAllIssuesConsecutiveIds(l: Ledger, recs: seq<Record>)
    ensures var b := PutAll(l, recs);
      && b.ledger.lastId == l.lastId + |recs|
      && (forall k :: 0 <= k < |recs| ==> b.ids[k] == l.lastId + 1 + k)
      && (forall k :: 0 <= k < |recs| ==> b.ids[k] in b.ledger.trades && b.ledger.trades[b.ids[k]] == recs[k])
      && (forall id :: id in l.trades && !(l.lastId < id <= l.lastId + |recs|) ==>
            id in b.ledger.trades && b.ledger.trades[id] == l.trades[id])
    decreases |recs|
  {
    if |recs| > 0 {
      var front := recs[..|recs| - 1];
      PutAllIssuesConsecutiveIds(l, front);
      var prev := PutAll(l, front);
      var s := Put(prev.ledger, recs[|recs| - 1]);
      var b := PutAll(l, recs);
      assert b == Batch(prev.ids + [s.id], s.ledger);
      forall k | 0 <= k < |recs|
        ensures b.ids[k] == l.lastId + 1 + k
        ensures b.ids[k] in b.ledger.trades && b.ledger.trades[b.ids[k]] == recs[k]
      {
        if k < |front| {
          assert b.ids[k] == prev.ids[k] && front[k] == recs[k];
        }
      }
    }
  }

  /** From server start, the n-th recorded trade gets identifier n. */
  lemma {:induction false} IdsStartAtOne(recs: seq<Record>)
    ensures var b := PutAll(Empty, recs);
      forall k :: 0 <= k < |recs| ==>
        && b.ids[k] == k + 1
        && b.ids[k] in b.ledger.trades
        && b.ledger.trades[b.ids[k]] == recs[k]
  {
    PutAllIssuesConsecutiveIds(Empty, recs);
  }
}

=== FILE: quotes.dfy ===
/** The quote side of the server: the symbol list sent to the price provider
    for a check (responseStockToBuyStock, server/server.go:161-176) and the
    symbol-to-price map built from its answer (jsonStructToMap,
    server/server.go:294-308). The provider itself is outside the model: its
    already-decoded answer is an input. */
module Quotes {
  import opened Types

  /** One quote of the provider's answer; `price` is None when the provider
      sent an empty last-trade price. */
  datatype QuoteRow = QuoteRow(symbol: string, price: Option<real>)

  /** The price map and the flag raised by a real symbol without a price. */
  datatype QuoteTable = QuoteTable(prices: map<string, real>, missing: bool)

  /** The number stored for a row: an empty price fails to parse and the
      server keeps the zero value. */
  function PriceOf(row: QuoteRow): real
  {
    row.price.GetOr(0.0)
  }

  /** The symbols of the rows other than the placeholder. */
  ghost function RealSymbols(rows: seq<QuoteRow>): set<string>
  {
    set i | 0 <= i < |rows| && rows[i].symbol != Placeholder :: rows[i].symbol
  }

  /** Row `i` is the last row quoting its symbol. */
  ghost predicate LastFor(rows: seq<QuoteRow>, i: int)
    requires 0 <= i < |rows|
  {
    forall j :: i < j < |rows| ==> rows[j].symbol != rows[i].symbol
  }

  /** jsonStructToMap: every non-placeholder row is stored in order (a later
      row for the same symbol overwrites an earlier one), and the flag is set
      by any non-placeholder row without a price. */
  function QuoteMap(rows: seq<QuoteRow>): (t: QuoteTable)
    ensures Placeholder !in t.prices
    ensures t.prices.Keys == RealSymbols(rows)
    ensures t.missing <==> exists i :: 0 <= i < |rows| && rows[i].symbol != Placeholder && rows[i].price.None?
    ensures forall i :: 0 <= i < |rows| && rows[i].symbol != Placeholder && LastFor(rows, i)
              ==> t.prices[rows[i].symbol] == PriceOf(rows[i])
    decreases |rows|
  {
    if |rows| == 0 then QuoteTable(map[], false)
    else
      var front := rows[..|rows| - 1];
      var row := rows[|rows| - 1];
      var prev := QuoteMap(front);
      LastRowFacts(rows);
      var missing := prev.missing || (row.price.None? && row.symbol != Placeholder);
      if row.symbol != Placeholder then QuoteTable(prev.prices[row.symbol := PriceOf(row)], missing)
      else QuoteTable(prev.prices, missing)
  }

  /** How the row predicates of a list relate to those of the list without
      its last row. */
  lemma LastRowFacts(rows: seq<QuoteRow>)
    requires |rows| > 0
    ensures var front, row := rows[..|rows| - 1], rows[|rows| - 1];
      && (forall i :: 0 <= i < |front| ==> front[i] == rows[i])
      && RealSymbols(rows) == RealSymbols(front) + (if row.symbol != Placeholder then {row.symbol} else {})
      && (forall i :: 0 <= i < |front| && LastFor(rows, i) ==> LastFor(front, i) && rows[i].symbol != row.symbol)
      && ((exists i :: 0 <= i < |rows| && rows[i].symbol != Placeholder && rows[i].price.None?)
          <==> (exists i :: 0 <= i < |front| && front[i].symbol != Placeholder && front[i].price.None?)
               || (row.symbol != Placeholder && row.price.None?))
  {
    var front, row := rows[..|rows| - 1], rows[|rows| - 1];
    assert forall i :: 0 <= i < |front| ==> front[i] == rows[i];
    assert RealSymbols(rows) == RealSymbols(front) + (if row.symbol != Placeholder then {row.symbol} else {});
  }

  /** With one row per symbol, every real symbol maps to its own row's price. */
  lemma QuoteMapOfDistinct(rows: seq<QuoteRow>)
    requires forall i, j :: 0 <= i < j < |rows| ==> rows[i].symbol != rows[j].symbol
    ensures forall i :: 0 <= i < |rows| && rows[i].symbol != Placeholder
              ==> QuoteMap(rows).prices[rows[i].symbol] == PriceOf(rows[i])
  {
    forall i | 0 <= i < |rows| && rows[i].symbol != Placeholder
      ensures QuoteMap(rows).prices[rows[i].symbol] == PriceOf(rows[i])
    {
      assert LastFor(rows, i);
    }
  }

  /** responseStockToBuyStock: the held symbols in order, with the placeholder
      appended when there is exactly one, so the provider is always asked for
      at least two symbols. */
  function CheckQuoteRequest(hs: seq<Holding>): (symbols: seq<string>)
    ensures |hs| >= 1 ==> |symbols| >= 2
    ensures |symbols| == if |hs| == 1 then 2 else |hs|
    ensures forall i :: 0 <= i < |hs| ==> symbols[i] == hs[i].symbol
    ensures |hs| == 1 ==> symbols[1] == Placeholder
  {
    var held := seq(|hs|, i requires 0 <= i < |hs| => hs[i].symbol);
    if |hs| == 1 then held + [Placeholder] else held
  }

  /** The padding symbol never receives a price, whatever the provider answers. */
  lemma PaddingIsNeverPriced(hs: seq<Holding>, rows: seq<QuoteRow>)
    requires |hs| == 1
    ensures CheckQuoteRequest(hs)[1] !in QuoteMap(rows).prices
  {
  }
}

=== FILE: render.dfy ===
/** The two response renderers: the buy summary "SYM:N:$cost,..."
    (responseStocksToBuyResponse, server/server.go:314-317) and the check
    summary "SYM:N:<pl>$price,..." (makeCheckResponse, server/server.go:132-141).
    Both append a comma after every segment and then cut the last character;
    number formatting (strconv.FormatFloat) is the parameter `fmt`. */
module Render {
  import opened Types
  import opened Text
  import opened Valuation

  /** The loop's accumulated text: every segment followed by a comma. */
  function Terminated(segs: seq<string>): string
  {
    if |segs| == 0 then "" else segs[0] + "," + Terminated(segs[1..])
  }

  /** Go's s[:len(s)-1]; on an empty string the source panics. */
  function StripLast(s: string): (r: string)
    requires |s| >= 1
    ensures r + [s[|s| - 1]] == s
  {
    s[..|s| - 1]
  }

  /** Appending a comma to every segment and cutting the final comma is the
      same as joining the segments with commas. */
  lemma {:induction false} TerminatedIsJoin(segs: seq<string>)
    requires |segs| >= 1
    ensures Terminated(segs) == Join(segs, ',') + ","
    ensures StripLast(Terminated(segs)) == Join(segs, ',')
    decreases |segs|
  {
    var t := Terminated(segs);
    if |segs| > 1 {
      TerminatedIsJoin(segs[1..]);
      assert t == segs[0] + "," + (Join(segs[1..], ',') + ",");
    } else {
      assert Terminated(segs[1..]) == "";
    }
    assert t == Join(segs, ',') + ",";
    assert t[..|t| - 1] == Join(segs, ',');
  }

  /** Three separator-free fields glued with the separator split back apart. */
  lemma SplitThree(a: string, b: string, c: string, sep: char)
    requires sep !in a && sep !in b && sep !in c
    ensures Split(a + [sep] + b + [sep] + c, sep) == [a, b, c]
  {
    var bc := b + [sep] + c;
    SplitWithoutSep(c, sep);
    SplitAfterPrefix(b, sep, c);
    assert Split(bc, sep) == [b, c];
    assert a + [sep] + b + [sep] + c == a + [sep] + bc;
    SplitAfterPrefix(a, sep, bc);
    assert [a] + [b, c] == [a, b, c];
  }

  /** Characters a symbol must avoid for the summaries to be read back. */
  predicate PlainSymbol(s: string)
  {
    ',' !in s && ':' !in s
  }

  /** The number formatter never emits the summaries' separators. */
  ghost predicate PlainFormat(fmt: real -> string)
  {
    forall x :: ',' !in fmt(x) && ':' !in fmt(x)
  }

  lemma IntTextIsPlain(n: int)
    ensures ',' !in IntToString(n) && ':' !in IntToString(n)
  {
    var s := IntToString(n);
    assert forall i :: 0 <= i < |s| ==> s[i] != ',' && s[i] != ':';
  }

  /** One bought position: symbol, share count, then the cost basis after "$". */
  function BuySegment(h: Holding, fmt: real -> string): string
  {
    h.symbol + ":" + IntToString(h.shares) + ":$" + fmt(h.cost)
  }

  function BuySegments(hs: seq<Holding>, fmt: real -> string): (segs: seq<string>)
    ensures |segs| == |hs|
    ensures forall i :: 0 <= i < |hs| ==> segs[i] == BuySegment(hs[i], fmt)
  {
    seq(|hs|, i requires 0 <= i < |hs| => BuySegment(hs[i], fmt))
  }

  /** The Stocks text of a buy response; an empty list makes the source panic. */
  function RenderBuy(hs: seq<Holding>, fmt: real -> string): (s: string)
    requires |hs| >= 1
    ensures s == Join(BuySegments(hs, fmt), ',')
  {
    TerminatedIsJoin(BuySegments(hs, fmt));
    StripLast(Terminated(BuySegments(hs, fmt)))
  }

  /** A buy summary reads back: one comma-separated segment per holding, and
      each segment's colon-separated fields give the symbol, the share count
      in decimal and the formatted cost basis. */
  lemma BuySummaryReadsBack(hs: seq<Holding>, fmt: real -> string)
    requires |hs| >= 1
    requires forall i :: 0 <= i < |hs| ==> PlainSymbol(hs[i].symbol)
    requires PlainFormat(fmt)
    ensures Split(RenderBuy(hs, fmt), ',') == BuySegments(hs, fmt)
    ensures forall i :: 0 <= i < |hs| ==>
              Split(Split(RenderBuy(hs, fmt), ',')[i], ':')
                == [hs[i].symbol, IntToString(hs[i].shares), "$" + fmt(hs[i].cost)]
  {
    var segs := BuySegments(hs, fmt);
    forall i | 0 <= i < |hs|
      ensures ',' !in segs[i]
      ensures Split(segs[i], ':') == [hs[i].symbol, IntToString(hs[i].shares), "$" + fmt(hs[i].cost)]
    {
      BuySegmentFields(hs[i], fmt);
    }
    SplitJoin(segs, ',');
  }

  lemma BuySegmentFields(h: Holding, fmt: real -> string)
    requires PlainSymbol(h.symbol) && ',' !in fmt(h.cost) && ':' !in fmt(h.cost)
    ensures ',' !in BuySegment(h, fmt)
    ensures Split(BuySegment(h, fmt), ':') == [h.symbol, IntToString(h.shares), "$" + fmt(h.cost)]
  {
    IntTextIsPlain(h.shares);
    assert BuySegment(h, fmt) == h.symbol + [':'] + IntToString(h.shares) + [':'] + ("$" + fmt(h.cost));
    SplitThree(h.symbol, IntToString(h.shares), "$" + fmt(h.cost), ':');
  }

  /** One valued position: symbol, share count, indicator, then the current
      per-share price after "$". */
  function CheckSegment(v: Valued, fmt: real -> string): string
  {
    v.symbol + ":" + IntToString(v.shares) + ":" + v.pl + "$" + fmt(v.current)
  }

  function CheckSegments(vs: seq<Valued>, fmt: real -> string): (segs: seq<string>)
    ensures |segs| == |vs|
    ensures forall i :: 0 <= i < |vs| ==> segs[i] == CheckSegment(vs[i], fmt)
  {
    seq(|vs|, i requires 0 <= i < |vs| => CheckSegment(vs[i], fmt))
  }

  /** The Stocks text of a check response; an empty list makes the source panic. */
  function RenderCheck(vs: seq<Valued>, fmt: real -> string): (s: string)
    requires |vs| >= 1
    ensures s == Join(CheckSegments(vs, fmt), ',')
  {
    TerminatedIsJoin(CheckSegments(vs, fmt));
    StripLast(Terminated(CheckSegments(vs, fmt)))
  }

  /** A check summary reads back: one segment per position, whose fields give
      the symbol, the share count, and the indicator glued to the price. */
  lemma CheckSummaryReadsBack(vs: seq<Valued>, fmt: real -> string)
    requires |vs| >= 1
    requires forall i :: 0 <= i < |vs| ==> PlainSymbol(vs[i].symbol) && PlainSymbol(vs[i].pl)
    requires PlainFormat(fmt)
    ensures Split(RenderCheck(vs, fmt), ',') == CheckSegments(vs, fmt)
    ensures forall i :: 0 <= i < |vs| ==>
              Split(Split(RenderCheck(vs, fmt), ',')[i], ':')
                == [vs[i].symbol, IntToString(vs[i].shares), vs[i].pl + "$" + fmt(vs[i].current)]
  {
    var segs := CheckSegments(vs, fmt);
    forall i | 0 <= i < |vs|
      ensures ',' !in segs[i]
      ensures Split(segs[i], ':') == [vs[i].symbol, IntToString(vs[i].shares), vs[i].pl + "$" + fmt(vs[i].current)]
    {
      CheckSegmentFields(vs[i], fmt);
    }
    SplitJoin(segs, ',');
  }

  lemma CheckSegmentFields(v: Valued, fmt: real -> string)
    requires PlainSymbol(v.symbol) && PlainSymbol(v.pl) && ',' !in fmt(v.current) && ':' !in fmt(v.current)
    ensures ',' !in CheckSegment(v, fmt)
    ensures Split(CheckSegment(v, fmt), ':') == [v.symbol, IntToString(v.shares), v.pl + "$" + fmt(v.current)]
  {
    IntTextIsPlain(v.shares);
    assert CheckSegment(v, fmt) == v.symbol + [':'] + IntToString(v.shares) + [':'] + (v.pl + "$" + fmt(v.current));
    SplitThree(v.symbol, IntToString(v.shares), v.pl + "$" + fmt(v.current), ':');
  }
}

=== FILE: text.dfy ===
/** The string primitives the server relies on from Go's standard library:
    strings.Split, strings.Contains/Index, strings.ToUpper, strconv.Itoa and
    the digit part of strconv.ParseFloat, together with their inverses. */
module Text {
  import opened Types

  /** Splits `s` at every `sep`, keeping empty pieces, as strings.Split does
      for a one-character separator. */
  function Split(s: string, sep: char): (pieces: seq<string>)
    ensures |pieces| >= 1
    ensures |pieces| == 1 <==> sep !in s
    ensures forall i :: 0 <= i < |pieces| ==> sep !in pieces[i]
    decreases |s|
  {
    if |s| == 0 then [""]
    else
      var rest := Split(s[1..], sep);
      if s[0] == sep then [""] + rest
      else [[s[0]] + rest[0]] + rest[1..]
  }

  /** Joins a non-empty list of pieces with `sep` between neighbours. */
  function Join(xs: seq<string>, sep: char): string
    requires |xs| >= 1
    decreases |xs|
  {
    if |xs| == 1 then xs[0] else xs[0] + [sep] + Join(xs[1..], sep)
  }

  /** Joining the pieces of a split gives back the original string. */
  lemma {:induction false} JoinSplit(s: string, sep: char)
    ensures Join(Split(s, sep), sep) == s
    decreases |s|
  {
    if |s| > 0 {
      var rest := Split(s[1..], sep);
      JoinSplit(s[1..], sep);
      if s[0] == sep {
        assert Split(s, sep) == [""] + rest;
        assert ([""] + rest)[1..] == rest;
        assert s == [sep] + s[1..];
      } else {
        var pieces := [[s[0]] + rest[0]] + rest[1..];
        assert Split(s, sep) == pieces;
        if |rest| == 1 {
          assert s == [s[0]] + s[1..];
        } else {
          assert pieces[1..] == rest[1..];
          assert Join(rest, sep) == rest[0] + [sep] + Join(rest[1..], sep);
          assert s == [s[0]] + s[1..];
        }
      }
    }
  }

  /** A string without the separator splits into itself alone. */
  lemma {:induction false} SplitWithoutSep(a: string, sep: char)
    requires sep !in a
    ensures Split(a, sep) == [a]
  {
    JoinSplit(a, sep);
  }

  /** A separator-free prefix followed by the separator becomes the first piece. */
  lemma {:induction false} SplitAfterPrefix(a: string, sep: char, b: string)
    requires sep !in a
    ensures Split(a + [sep] + b, sep) == [a] + Split(b, sep)
    decreases |a|
  {
    var s := a + [sep] + b;
    if |a| == 0 {
      assert s == [sep] + b;
      assert s[1..] == b;
    } else {
      assert s[1..] == a[1..] + [sep] + b;
      SplitAfterPrefix(a[1..], sep, b);
      assert [a[0]] + a[1..] == a;
    }
  }

  /** Splitting a join of separator-free pieces recovers the pieces. */
  lemma {:induction false} SplitJoin(xs: seq<string>, sep: char)
    requires |xs| >= 1
    requires forall i :: 0 <= i < |xs| ==> sep !in xs[i]
    ensures Split(Join(xs, sep), sep) == xs
    decreases |xs|
  {
    if |xs| == 1 {
      SplitWithoutSep(xs[0], sep);
    } else {
      SplitJoin(xs[1..], sep);
      SplitAfterPrefix(xs[0], sep, Join(xs[1..], sep));
      assert [xs[0]] + xs[1..] == xs;
    }
  }

  /** Position of the first `c` in `s`, or -1, as strings.Index. */
  function FirstIndex(s: string, c: char): (k: int)
    ensures -1 <= k < |s|
    ensures k == -1 <==> c !in s
    ensures 0 <= k ==> s[k] == c && c !in s[..k]
    decreases |s|
  {
    if |s| == 0 then -1
    else if s[0] == c then 0
    else
      var k := FirstIndex(s[1..], c);
      assert k >= 0 ==> s[..k + 1] == [s[0]] + s[1..][..k];
      if k < 0 then -1 else k + 1
  }

  /** The first occurrence is the one with no earlier occurrence. */
  lemma FirstIndexAt(s: string, c: char, p: nat)
    requires p < |s| && s[p] == c && c !in s[..p]
    ensures FirstIndex(s, c) == p
  {
  }

  /** The text before and after the first `c` in `s`, if there is one. */
  function CutFirst(s: string, c: char): (r: Option<(string, string)>)
    ensures r.None? <==> c !in s
    ensures r.Some? ==> s == r.value.0 + [c] + r.value.1 && c !in r.value.0
  {
    var k := FirstIndex(s, c);
    if k < 0 then None
    else
      assert s == s[..k] + [c] + s[k + 1..];
      Some((s[..k], s[k + 1..]))
  }

  /** Cutting at the first `c` undoes gluing a `c`-free prefix to a rest. */
  lemma CutFirstAt(a: string, c: char, b: string)
    requires c !in a
    ensures CutFirst(a + [c] + b, c) == Some((a, b))
  {
    var s := a + [c] + b;
    assert s[..|a|] == a;
    FirstIndexAt(s, c, |a|);
    assert s[|a| + 1..] == b;
  }

  function UpperChar(c: char): char
  {
    if 'a' <= c <= 'z' then (c as int - 32) as char else c
  }

  predicate IsLower(c: char)
  {
    'a' <= c <= 'z'
  }

  /** ASCII upper-casing (the tickers the server accepts are ASCII): every
      lower-case letter becomes the capital at the same place in the
      alphabet, every other character is kept, so none is left lower-case. */
  function Upper(s: string): (u: string)
    ensures |u| == |s|
    ensures forall i :: 0 <= i < |s| ==> !IsLower(u[i])
    ensures forall i :: 0 <= i < |s| && !IsLower(s[i]) ==> u[i] == s[i]
    ensures forall i :: 0 <= i < |s| && IsLower(s[i]) ==>
              'A' <= u[i] <= 'Z' && u[i] as int - 'A' as int == s[i] as int - 'a' as int
  {
    seq(|s|, i requires 0 <= i < |s| => UpperChar(s[i]))
  }

  /** Upper-casing twice is upper-casing once. */
  lemma UpperIdempotent(s: string)
    ensures Upper(Upper(s)) == Upper(s)
  {
    var u := Upper(s);
    assert forall i :: 0 <= i < |u| ==> Upper(u)[i] == u[i];
  }

  predicate IsDigit(c: char)
  {
    '0' <= c <= '9'
  }

  predicate AllDigits(s: string)
  {
    forall i :: 0 <= i < |s| ==> IsDigit(s[i])
  }

  /** Decimal value of a digit string (most significant digit first). */
  function DigitsValue(s: string): nat
    requires AllDigits(s)
    decreases |s|
  {
    if |s| == 0 then 0
    else DigitsValue(s[..|s| - 1]) * 10 + (s[|s| - 1] as int - '0' as int)
  }

  function Pow10(n: nat): (p: nat)
    ensures p >= 1
  {
    if n == 0 then 1 else 10 * Pow10(n - 1)
  }

  /** Reading digits written after other digits: the front is shifted by
      the back's length. */
  lemma {:induction false} DigitsAppend(a: string, b: string)
    requires AllDigits(a) && AllDigits(b)
    ensures AllDigits(a + b)
    ensures DigitsValue(a + b) == DigitsValue(a) * Pow10(|b|) + DigitsValue(b)
    decreases |b|
  {
    assert forall i :: 0 <= i < |a + b| ==> IsDigit((a + b)[i]) by {
      forall i | 0 <= i < |a + b|
        ensures IsDigit((a + b)[i])
      {
        if i >= |a| {
          assert (a + b)[i] == b[i - |a|];
        }
      }
    }
    if |b| == 0 {
      assert a + b == a;
    } else {
      var front := b[..|b| - 1];
      var d := b[|b| - 1] as int - '0' as int;
      assert AllDigits(front) by {
        assert forall i :: 0 <= i < |front| ==> front[i] == b[i];
      }
      DigitsAppend(a, front);
      assert (a + b)[..|a + b| - 1] == a + front;
      assert DigitsValue(a + b) == DigitsValue(a + front) * 10 + d;
      assert DigitsValue(b) == DigitsValue(front) * 10 + d;
      assert Pow10(|b|) == 10 * Pow10(|front|);
      ShiftTen(DigitsValue(a), Pow10(|front|), DigitsValue(front), d);
    }
  }

  lemma ShiftTen(x: int, p: int, y: int, d: int)
    ensures (x * p + y) * 10 + d == x * (10 * p) + (y * 10 + d)
  {
  }

  /** Shortest decimal digits of `n`, as strconv.Itoa for non-negative numbers. */
  function NatToString(n: nat): (s: string)
    ensures |s| >= 1
    ensures AllDigits(s)
    ensures DigitsValue(s) == n
    ensures s[0] == '0' ==> |s| == 1
    decreases n
  {
    var last := [((n % 10) + '0' as int) as char];
    if n < 10 then last
    else
      var front := NatToString(n / 10);
      assert (front + last)[..|front + last| - 1] == front;
      front + last
  }

  /** strconv.Itoa: optional minus sign, then the digits of the magnitude. */
  function IntToString(n: int): (s: string)
    ensures |s| >= 1
    ensures forall i :: 0 <= i < |s| ==> IsDigit(s[i]) || s[i] == '-'
    ensures n >= 0 ==> AllDigits(s) && DigitsValue(s) == n
    ensures n < 0 ==> s[0] == '-' && AllDigits(s[1..]) && DigitsValue(s[1..]) == -n
    ensures n >= 0 ==> (s[0] == '0' ==> |s| == 1)
    ensures n < 0 ==> |s| >= 2 && s[1] != '0'
  {
    if n < 0 then
      var digits := NatToString(-n);
      assert ("-" + digits)[1..] == digits;
      "-" + digits
    else NatToString(n)
  }
}

=== FILE: transaction.dfy ===
/** The two remote calls of the transaction server, Buy
    (server/server.go:178-207) and Check (server/server.go:107-130), as
    functions of the ledger. The quote provider is the parameter `provider`:
    given the requested symbols it yields the decoded quote rows. Number
    formatting is the parameter `fmt`. */
module Transaction {
  import opened Types
  import opened Text
  import opened AllocationParser
  import opened Quotes
  import opened Allocator
  import opened Ledger
  import opened Valuation
  import opened Render

  /** The reply to a buy: on an error, identifier 0 and the error text in
      `stocks`; otherwise the new trade identifier and its summary. */
  datatype BuyResponse = BuyResponse(tradeId: int, stocks: string, unvested: real)

  /** The reply to a check; all zero when the trade is unknown. */
  datatype CheckResponse = CheckResponse(stocks: string, marketValue: real, unvested: real)

  datatype BuyOutcome = BuyOutcome(response: BuyResponse, ledger: Ledger)

  const SumMismatchText: string := "Sum of percentages not 100"
  const BadFormatText: string := "Request format invalid"
  const NotFoundText: string := "Invalid Symbol / Symbol not found"

  /** The symbols sent to the provider for a buy: every entry, the padding
      included, in order. */
  function Requested(bs: seq<BuyStock>): (symbols: seq<string>)
    ensures |symbols| == |bs|
    ensures forall i :: 0 <= i < |bs| ==> symbols[i] == bs[i].symbol
  {
    seq(|bs|, i requires 0 <= i < |bs| => bs[i].symbol)
  }

  /** The quote table a buy works with. */
  function BuyQuotes(entries: seq<BuyStock>, provider: seq<string> -> seq<QuoteRow>): QuoteTable
  {
    QuoteMap(provider(Requested(entries)))
  }

  /** The request parses and every symbol is priced: the buy gets recorded. */
  predicate Succeeds(spec: string, budget: real, provider: seq<string> -> seq<QuoteRow>)
  {
    var p := ParseBuyRequest(spec, budget);
    p.code == CodeOk && !BuyQuotes(p.entries, provider).missing
  }

  /** What the allocator needs when a buy gets that far: the walked entries
      name distinct symbols with positive quotes. The source divides by the
      quote and indexes a slice sized by the quote map, so a zero or missing
      price or a repeated symbol breaks it. */
  predicate Tradable(spec: string, budget: real, provider: seq<string> -> seq<QuoteRow>)
  {
    var p := ParseBuyRequest(spec, budget);
    var walked := DropPlaceholder(p.entries);
    Succeeds(spec, budget, provider) ==>
      DistinctSymbols(walked) && Quoted(walked, BuyQuotes(p.entries, provider).prices)
  }

  /** responseStocksToBuyResponse: takes the next identifier, stores the
      holdings with the unvested amount under it, and renders the summary. */
  function RecordTrade(l: Ledger, hs: seq<Holding>, unvested: real, fmt: real -> string): (o: BuyOutcome)
    requires |hs| >= 1
    ensures o.response.tradeId == l.lastId + 1 == o.ledger.lastId
    ensures o.response.tradeId in o.ledger.trades
    ensures o.ledger.trades[o.response.tradeId] == Record(hs, unvested)
    ensures o.ledger.trades.Keys == l.trades.Keys + {o.response.tradeId}
    ensures forall id :: id in l.trades && id != o.response.tradeId ==> o.ledger.trades[id] == l.trades[id]
    ensures Valid(l) ==> o.response.tradeId !in l.trades && Valid(o.ledger)
    ensures o.response.stocks == Join(BuySegments(hs, fmt), ',')
    ensures o.response.unvested == unvested
  {
    var s := Put(l, Record(hs, unvested));
    BuyOutcome(BuyResponse(s.id, RenderBuy(hs, fmt), unvested), s.ledger)
  }

  /** Buy: a parse error, then a quote error, reject the request in that
      order and leave the ledger alone; otherwise the allocation is bought
      and recorded. */
  function Buy(l: Ledger, spec: string, budget: real, provider: seq<string> -> seq<QuoteRow>,
               fmt: real -> string): (o: BuyOutcome)
    requires Tradable(spec, budget, provider)
    ensures var p := ParseBuyRequest(spec, budget);
      p.code == CodeSumMismatch ==> o == BuyOutcome(BuyResponse(0, SumMismatchText, 0.0), l)
    ensures var p := ParseBuyRequest(spec, budget);
      p.code == CodeBadFormat ==> o == BuyOutcome(BuyResponse(0, BadFormatText, 0.0), l)
    ensures var p := ParseBuyRequest(spec, budget);
      (p.code == CodeOk && BuyQuotes(p.entries, provider).missing) ==>
        o == BuyOutcome(BuyResponse(0, NotFoundText, 0.0), l)
    ensures !Succeeds(spec, budget, provider) ==> o.ledger == l && o.response.tradeId == 0
    ensures Succeeds(spec, budget, provider) ==>
      && o.response.tradeId == l.lastId + 1 == o.ledger.lastId
      && o.response.tradeId in o.ledger.trades
      && o.ledger.trades[o.response.tradeId].balance == o.response.unvested
      && |o.ledger.trades[o.response.tradeId].holdings| >= 1
      && o.ledger.trades.Keys == l.trades.Keys + {o.response.tradeId}
      && (forall id :: id in l.trades && id != o.response.tradeId ==> o.ledger.trades[id] == l.trades[id])
      && (Valid(l) ==> Valid(o.ledger))
  {
    var p := ParseBuyRequest(spec, budget);
    if p.code == CodeSumMismatch then BuyOutcome(BuyResponse(0, SumMismatchText, 0.0), l)
    else if p.code == CodeBadFormat then BuyOutcome(BuyResponse(0, BadFormatText, 0.0), l)
    else
      var t := BuyQuotes(p.entries, provider);
      if t.missing then BuyOutcome(BuyResponse(0, NotFoundText, 0.0), l)
      else
        var walked := DropPlaceholder(p.entries);
        DropPlaceholderSplitsCash(p.entries);
        DistinctQuotedFit(walked, t.prices.Keys);
        var a := Allocate(p.entries, t.prices);
        RecordTrade(l, a.holdings, a.unvested, fmt)
  }

  /** A request that parses into `entries` and is fully quoted by `m` is
      recorded with the allocation of `entries` at `m`. */
  lemma BuyRecordsAllocation(l: Ledger, spec: string, budget: real, provider: seq<string> -> seq<QuoteRow>,
                             fmt: real -> string, entries: seq<BuyStock>, m: map<string, real>)
    requires ParseBuyRequest(spec, budget) == Parsed(entries, CodeOk)
    requires BuyQuotes(entries, provider) == QuoteTable(m, false)
    requires DistinctSymbols(DropPlaceholder(entries)) && Quoted(DropPlaceholder(entries), m)
    ensures Tradable(spec, budget, provider)
    ensures |DropPlaceholder(entries)| <= |m|
    ensures |Allocate(entries, m).holdings| >= 1
    ensures Buy(l, spec, budget, provider, fmt)
         == RecordTrade(l, Allocate(entries, m).holdings, Allocate(entries, m).unvested, fmt)
  {
    DropPlaceholderSplitsCash(entries);
    DistinctQuotedFit(DropPlaceholder(entries), m.Keys);
  }

  /** Every holding a buy records carries a parsed symbol or is an empty
      slot, so neither holds a separator; with a formatter that emits none
      either, the reply's summary splits back into one `SYMBOL:SHARES:$COST`
      segment per stored holding. */
  lemma BuyReplyReadsBack(l: Ledger, spec: string, budget: real,
                          provider: seq<string> -> seq<QuoteRow>, fmt: real -> string)
    requires Tradable(spec, budget, provider)
    requires Succeeds(spec, budget, provider)
    requires PlainFormat(fmt)
    ensures var o := Buy(l, spec, budget, provider, fmt);
      var hs := o.ledger.trades[o.response.tradeId].holdings;
      && (forall i :: 0 <= i < |hs| ==> PlainSymbol(hs[i].symbol))
      && Split(o.response.stocks, ',') == BuySegments(hs, fmt)
      && (forall i :: 0 <= i < |hs| ==>
            Split(Split(o.response.stocks, ',')[i], ':')
              == [hs[i].symbol, IntToString(hs[i].shares), "$" + fmt(hs[i].cost)])
  {
    var p := ParseBuyRequest(spec, budget);
    var m := BuyQuotes(p.entries, provider).prices;
    var w := DropPlaceholder(p.entries);
    BuyRecordsAllocation(l, spec, budget, provider, fmt, p.entries, m);
    DropPlaceholderSplitsCash(p.entries);
    ParsedSymbolsHaveNoSeparator(spec, budget);
    var hs := Allocate(p.entries, m).holdings;
    forall i | 0 <= i < |hs|
      ensures PlainSymbol(hs[i].symbol)
    {
      if i < |w| {
        assert hs[i].symbol == p.entries[i].symbol;
      } else {
        assert hs[i] == Unfilled;
      }
    }
    BuySummaryReadsBack(hs, fmt);
  }

  /** Valuation markers are "-", "+" or empty, so a check of a trade whose
      symbols hold no separator, with a formatter that emits none, replies
      with a summary that splits back into one segment per holding. */
  lemma CheckReplyReadsBack(l: Ledger, id: int, provider: seq<string> -> seq<QuoteRow>, fmt: real -> string)
    requires id in l.trades && |l.trades[id].holdings| >= 1
    requires forall i :: 0 <= i < |l.trades[id].holdings| ==> PlainSymbol(l.trades[id].holdings[i].symbol)
    requires PlainFormat(fmt)
    ensures var hs := l.trades[id].holdings;
      var v := Value(QuoteMap(provider(CheckQuoteRequest(hs))).prices, hs);
      var r := Check(l, id, provider, fmt);
      && Split(r.stocks, ',') == CheckSegments(v.rows, fmt)
      && (forall i :: 0 <= i < |hs| ==>
            Split(Split(r.stocks, ',')[i], ':')
              == [hs[i].symbol, IntToString(hs[i].shares), v.rows[i].pl + "$" + fmt(v.rows[i].current)])
  {
    var hs := l.trades[id].holdings;
    var v := Value(QuoteMap(provider(CheckQuoteRequest(hs))).prices, hs);
    forall i | 0 <= i < |v.rows|
      ensures PlainSymbol(v.rows[i].symbol) && PlainSymbol(v.rows[i].pl)
    {
      var c, cost := v.rows[i].current, hs[i].cost;
      assert v.rows[i].pl == "-" || v.rows[i].pl == "+" || v.rows[i].pl == "" by {
        if c < cost {} else if c > cost {} else {}
      }
    }
    CheckSummaryReadsBack(v.rows, fmt);
  }

  /** A recorded buy spends the budget on whole shares at the quoted prices
      and keeps the rest as the unvested balance, except for the cash of an
      entry the allocator skips. */
  lemma BuyConservesBudget(l: Ledger, spec: string, budget: real,
                           provider: seq<string> -> seq<QuoteRow>, fmt: real -> string)
    requires Tradable(spec, budget, provider)
    requires Succeeds(spec, budget, provider)
    ensures var o := Buy(l, spec, budget, provider, fmt);
      var rec := o.ledger.trades[o.response.tradeId];
      Invested(rec.holdings) + rec.balance == budget - Dropped(ParseBuyRequest(spec, budget).entries)
  {
    var p := ParseBuyRequest(spec, budget);
    ParseOkSpendsBudget(spec, budget);
    DropPlaceholderSplitsCash(p.entries);
  }

  /** A request without a comma is padded with a zero-percent placeholder, so
      nothing is skipped and the whole budget is accounted for. */
  lemma SingleSymbolBuyConservesBudget(l: Ledger, spec: string, budget: real,
                                       provider: seq<string> -> seq<QuoteRow>, fmt: real -> string)
    requires ',' !in spec
    requires Tradable(spec, budget, provider)
    requires Succeeds(spec, budget, provider)
    ensures var o := Buy(l, spec, budget, provider, fmt);
      var rec := o.ledger.trades[o.response.tradeId];
      Invested(rec.holdings) + rec.balance == budget
  {
    ParsePadsSingleToken(spec, budget);
    BuyConservesBudget(l, spec, budget, provider, fmt);
  }

  /** Check: an unknown identifier yields the all-zero response; a known one
      is valued at the provider's current quotes for its symbols. */
  function Check(l: Ledger, id: int, provider: seq<string> -> seq<QuoteRow>,
                 fmt: real -> string): (r: CheckResponse)
    requires id in l.trades ==> |l.trades[id].holdings| >= 1
    ensures id !in l.trades ==> r == CheckResponse("", 0.0, 0.0)
    ensures id in l.trades ==>
      var rec := l.trades[id];
      var v := Value(QuoteMap(provider(CheckQuoteRequest(rec.holdings))).prices, rec.holdings);
      && r.unvested == rec.balance
      && r.marketValue == MarketValue(v.rows)
      && r.stocks == Join(CheckSegments(v.rows, fmt), ',')
  {
    match Get(l, id)
    case Some(rec) =>
      var m := QuoteMap(provider(CheckQuoteRequest(rec.holdings))).prices;
      var v := Value(m, rec.holdings);
      CheckResponse(RenderCheck(v.rows, fmt), v.total, rec.balance)
    case None => CheckResponse("", 0.0, 0.0)
  }

  /** In a valid ledger only the identifiers 1..lastId are known. */
  lemma CheckOutsideIssuedIds(l: Ledger, id: int, provider: seq<string> -> seq<QuoteRow>, fmt: real -> string)
    requires Valid(l)
    requires id < 1 || id > l.lastId
    ensures Check(l, id, provider, fmt) == CheckResponse("", 0.0, 0.0)
  {
  }

  /** When the provider quotes every held symbol at its cost basis, a check
      reports no gain or loss and a market value equal to the amount invested. */
  lemma CheckAtCost(l: Ledger, id: int, provider: seq<string> -> seq<QuoteRow>, fmt: real -> string)
    requires id in l.trades && |l.trades[id].holdings| >= 1
    requires var hs := l.trades[id].holdings;
      forall i :: 0 <= i < |hs| ==>
        PriceOr0(QuoteMap(provider(CheckQuoteRequest(hs))).prices, hs[i].symbol) == hs[i].cost
    ensures Check(l, id, provider, fmt).marketValue == Invested(l.trades[id].holdings)
    ensures Check(l, id, provider, fmt).unvested == l.trades[id].balance
  {
    var hs := l.trades[id].holdings;
    ValuationAtCostIsNeutral(QuoteMap(provider(CheckQuoteRequest(hs))).prices, hs);
  }

  /** Buying and then checking at unchanged prices: the market value plus
      the unvested amount is the budget, less any skipped entry's cash. */
  lemma BuyThenCheckAtCost(l: Ledger, spec: string, budget: real, provider: seq<string> -> seq<QuoteRow>,
                           later: seq<string> -> seq<QuoteRow>, fmt: real -> string)
    requires Tradable(spec, budget, provider)
    requires Succeeds(spec, budget, provider)
    requires var o := Buy(l, spec, budget, provider, fmt);
      var hs := o.ledger.trades[o.response.tradeId].holdings;
      forall i :: 0 <= i < |hs| ==>
        PriceOr0(QuoteMap(later(CheckQuoteRequest(hs))).prices, hs[i].symbol) == hs[i].cost
    ensures var o := Buy(l, spec, budget, provider, fmt);
      var r := Check(o.ledger, o.response.tradeId, later, fmt);
      && r.unvested == o.response.unvested
      && r.marketValue + r.unvested == budget - Dropped(ParseBuyRequest(spec, budget).entries)
  {
    var o := Buy(l, spec, budget, provider, fmt);
    BuyConservesBudget(l, spec, budget, provider, fmt);
    CheckAtCost(o.ledger, o.response.tradeId, later, fmt);
  }
}


/** A first buy of a single symbol, worked through every stage. */
module SingleSymbolBuy {
  import opened Types
  import opened Text
  import opened AllocationParser
  import opened Quotes
  import opened Allocator
  import opened Ledger
  import opened Render
  import opened Transaction

  /** Two well-formed tokens: nothing malformed, and their percentages add. */
  lemma TwoTokensTotal(a: Token, b: Token)
    requires ValidToken(a) && ValidToken(b)
    ensures TotalPercent([Some(a), Some(b)]) == Percent(a) + Percent(b)
    ensures !Malformed([Some(a), Some(b)])
  {
    var ls: seq<Lexeme> := [Some(a), Some(b)];
    assert ls[1..] == [Some(b)];
    assert ls[1..][1..] == [];
    assert TotalPercent(ls[1..]) == PercentOf(Some(b)) + TotalPercent(ls[1..][1..]);
    assert TotalPercent(ls) == PercentOf(Some(a)) + TotalPercent(ls[1..]);
    forall i | 0 <= i < |ls|
      ensures ls[i].Some?
    {
      assert i == 0 || i == 1;
    }
  }

  lemma HundredText()
    ensures AllDigits("100") && DigitsValue("100") == 100
  {
    assert forall i :: 0 <= i < 3 ==> IsDigit("100"[i]);
    assert "100"[..2] == "10" && "10"[..1] == "1" && "1"[..0] == "";
  }

  /** "TICKER:100%" parses into the whole budget for the upper-cased ticker,
      followed by the padding entry. */
  lemma WholeBudgetParses(ticker: string, budget: real)
    requires IsTicker(ticker)
    ensures ParseBuyRequest(ticker + ":100%", budget)
         == Parsed([BuyStock(Upper(ticker), budget), BuyStock(Placeholder, 0.0)], CodeOk)
  {
    WholeBudgetLexes(ticker);
    PaddedWholeParses(ticker + ":100%", Token(ticker, "100", None), budget);
  }

  /** A request whose one token takes 100 percent, once padded, parses into
      the whole budget for that token's ticker and the padding entry. */
  lemma PaddedWholeParses(spec: string, t: Token, budget: real)
    requires ValidToken(t) && Percent(t) == 100.0
    requires Lexed(Tokens(spec)) == [Some(t), Some(Token(Placeholder, "0", None))]
    ensures ParseBuyRequest(spec, budget)
         == Parsed([BuyStock(Upper(t.ticker), budget), BuyStock(Placeholder, 0.0)], CodeOk)
  {
    PlaceholderTokenLexes();
    WholeThenZero(t, Token(Placeholder, "0", None), budget);
  }

  /** The verdict on a 100-percent token followed by a 0-percent one. */
  lemma WholeThenZero(t: Token, z: Token, budget: real)
    requires ValidToken(t) && Percent(t) == 100.0
    requires ValidToken(z) && Percent(z) == 0.0
    ensures Decide([Some(t), Some(z)], budget)
         == Parsed([BuyStock(Upper(t.ticker), budget), BuyStock(Upper(z.ticker), 0.0)], CodeOk)
  {
    var ls: seq<Lexeme> := [Some(t), Some(z)];
    TwoTokensTotal(t, z);
    ShareOfHundred(budget);
    ShareOfZero(budget);
    var r := Decide(ls, budget);
    assert r.entries[0] == EntryOf(Some(t), budget);
    assert r.entries[1] == EntryOf(Some(z), budget);
    assert r.entries == [r.entries[0], r.entries[1]];
  }

  lemma WholeBudgetLexes(ticker: string)
    requires IsTicker(ticker)
    ensures ',' !in ticker + ":100%"
    ensures ValidToken(Token(ticker, "100", None))
    ensures Lexed(Tokens(ticker + ":100%")) == [Some(Token(ticker, "100", None)), Some(Token(Placeholder, "0", None))]
    ensures Percent(Token(ticker, "100", None)) == 100.0
  {
    WholeBudgetToken(ticker);
    PlaceholderTokenLexes();
    SingleTokenSplits(ticker + ":100%");
  }

  lemma WholeBudgetToken(ticker: string)
    requires IsTicker(ticker)
    ensures ',' !in ticker + ":100%"
    ensures ValidToken(Token(ticker, "100", None))
    ensures Lex(ticker + ":100%") == Some(Token(ticker, "100", None))
    ensures Percent(Token(ticker, "100", None)) == 100.0
  {
    HundredText();
    var t := Token(ticker, "100", None);
    assert TokenText(t) == ticker + ":100%";
    LexComplete(t);
    TickerTextCommaFree(ticker);
  }

  lemma TickerTextCommaFree(ticker: string)
    requires IsTicker(ticker)
    ensures ',' !in ticker + ":100%"
  {
    var spec := ticker + ":100%";
    assert forall i :: 0 <= i < |ticker| ==> IsTickerChar(ticker[i]);
    assert forall i :: 0 <= i < |spec| ==> spec[i] != ',';
  }

  /** The padded single entry buys whole shares at the quoted price and keeps
      the remainder. */
  lemma SingleEntryAllocates(symbol: string, budget: real, price: real)
    requires symbol != Placeholder && price > 0.0
    ensures var entries := [BuyStock(symbol, budget), BuyStock(Placeholder, 0.0)];
      && DropPlaceholder(entries) == [BuyStock(symbol, budget)]
      && Quoted(DropPlaceholder(entries), map[symbol := price])
      && Allocate(entries, map[symbol := price])
           == Allocation([Holding(symbol, Trunc(budget / price), price)], FMod(budget, price))
  {
    var b := BuyStock(symbol, budget);
    var m := map[symbol := price];
    assert |m| == 1;
    assert Bought([b], m) == [Holding(symbol, Trunc(budget / price), price)];
    assert [b][..0] == [];
    assert Leftovers([b], m) == FMod(budget, price);
    assert Bought([b], m) + seq(0, _ => Unfilled) == Bought([b], m);
  }

  lemma SingleQuoteTable(symbol: string, price: real)
    requires symbol != Placeholder
    ensures QuoteMap([QuoteRow(symbol, Some(price))]) == QuoteTable(map[symbol := price], false)
  {
    assert [QuoteRow(symbol, Some(price))][..0] == [];
  }

  /** A request parsed into one real entry and the padding is recorded from
      an empty ledger as trade 1. */
  lemma FirstBuyOfParsedEntry(spec: string, symbol: string, budget: real, price: real,
                              provider: seq<string> -> seq<QuoteRow>, fmt: real -> string)
    requires symbol != Placeholder && price > 0.0
    requires ParseBuyRequest(spec, budget) == Parsed([BuyStock(symbol, budget), BuyStock(Placeholder, 0.0)], CodeOk)
    requires provider([symbol, Placeholder]) == [QuoteRow(symbol, Some(price))]
    ensures Tradable(spec, budget, provider)
    ensures var o := Buy(Empty, spec, budget, provider, fmt);
      var h := Holding(symbol, Trunc(budget / price), price);
      && o.response == BuyResponse(1, BuySegment(h, fmt), FMod(budget, price))
      && o.ledger == Ledger(1, map[1 := Record([h], FMod(budget, price))])
  {
    var entries := [BuyStock(symbol, budget), BuyStock(Placeholder, 0.0)];
    var m := map[symbol := price];
    assert Requested(entries) == [symbol, Placeholder];
    var h := Holding(symbol, Trunc(budget / price), price);
    SingleQuoteTable(symbol, price);
    SingleEntryAllocates(symbol, budget, price);
    BuyRecordsAllocation(Empty, spec, budget, provider, fmt, entries, m);
    assert Buy(Empty, spec, budget, provider, fmt) == RecordTrade(Empty, [h], FMod(budget, price), fmt);
    RecordFirstTrade(h, FMod(budget, price), fmt);
  }

  /** The first trade recorded from server start gets identifier 1. */
  lemma RecordFirstTrade(h: Holding, unvested: real, fmt: real -> string)
    ensures RecordTrade(Empty, [h], unvested, fmt)
         == BuyOutcome(BuyResponse(1, BuySegment(h, fmt), unvested), Ledger(1, map[1 := Record([h], unvested)]))
  {
    assert BuySegments([h], fmt) == [BuySegment(h, fmt)];
    assert Empty.trades[1 := Record([h], unvested)] == map[1 := Record([h], unvested)];
  }

  /** From server start, buying one symbol with its whole budget while the
      provider quotes it at `price` records trade 1: whole shares of the
      budget at that price, the remainder unvested, and the summary
      "SYMBOL:SHARES:$PRICE". */
  lemma FirstBuyOfOneSymbol(ticker: string, budget: real, price: real,
                            provider: seq<string> -> seq<QuoteRow>, fmt: real -> string)
    requires IsTicker(ticker) && Upper(ticker) != Placeholder && price > 0.0
    requires provider([Upper(ticker), Placeholder]) == [QuoteRow(Upper(ticker), Some(price))]
    ensures Tradable(ticker + ":100%", budget, provider)
    ensures var o := Buy(Empty, ticker + ":100%", budget, provider, fmt);
      var h := Holding(Upper(ticker), Trunc(budget / price), price);
      && o.response == BuyResponse(1, BuySegment(h, fmt), FMod(budget, price))
      && o.ledger == Ledger(1, map[1 := Record([h], FMod(budget, price))])
  {
    WholeBudgetParses(ticker, budget);
    FirstBuyOfParsedEntry(ticker + ":100%", Upper(ticker), budget, price, provider, fmt);
  }
}

=== FILE: types.dfy ===
/** The records the transaction server passes between its stages
    (server/server.go, the internal structs), and the money sums over them. */
module Types {

  datatype Option<T> = None | Some(value: T) {
    function GetOr(default: T): T {
      match this
      case Some(v) => v
      case None => default
    }
  }

  /** The ticker the server pads a one-entry list with, so that the quote
      provider always answers with a list. */
  const Placeholder: string := "X.Y.Z"

  /** One parsed allocation: a ticker and the cash assigned to it. */
  datatype BuyStock = BuyStock(symbol: string, value: real)

  /** One purchased position: whole shares bought at cost-basis `cost` per share. */
  datatype Holding = Holding(symbol: string, shares: int, cost: real)

  /** What the ledger stores per trade: the holdings and the cash left unvested. */
  datatype Record = Record(holdings: seq<Holding>, balance: real)

  /** The zero value of a holding slot that the allocator never fills. */
  const Unfilled: Holding := Holding("", 0, 0.0)

  /** Total cash assigned by a list of allocations. */
  function SumValues(bs: seq<BuyStock>): real
  {
    if |bs| == 0 then 0.0 else bs[0].value + SumValues(bs[1..])
  }

  /** Cash spent on one holding: its shares at its cost basis. */
  function Spent(h: Holding): real
  {
    h.shares as real * h.cost
  }

  /** Total cash spent on a list of holdings at their cost basis. */
  function Invested(hs: seq<Holding>): real
  {
    if |hs| == 0 then 0.0 else Spent(hs[0]) + Invested(hs[1..])
  }

  lemma {:induction false} InvestedAppend(hs: seq<Holding>, h: Holding)
    ensures Invested(hs + [h]) == Invested(hs) + Spent(h)
    decreases |hs|
  {
    if |hs| == 0 {
      assert hs + [h] == [h];
    } else {
      assert (hs + [h])[1..] == hs[1..] + [h];
      InvestedAppend(hs[1..], h);
    }
  }

  lemma {:induction false} InvestedOfUnfilled(hs: seq<Holding>, n: nat)
    ensures Invested(hs + seq(n, _ => Unfilled)) == Invested(hs)
    decreases n
  {
    if n == 0 {
      assert hs + seq(n, _ => Unfilled) == hs;
    } else {
      var pad := seq(n - 1, _ => Unfilled);
      assert hs + seq(n, _ => Unfilled) == (hs + pad) + [Unfilled];
      InvestedAppend(hs + pad, Unfilled);
      InvestedOfUnfilled(hs, n - 1);
    }
  }
}

=== FILE: valuation.dfy ===
/** Portfolio valuation (profitLoss, server/server.go:143-159): each stored
    holding is priced at the current quote, flagged against its cost basis,
    and the current prices times share counts are summed. */
module Valuation {
  import opened Types

  /** One valued position: `current` is the per-share quote, not the
      position's value, and `pl` is "-", "+" or empty. */
  datatype Valued = Valued(symbol: string, shares: int, current: real, pl: string)

  datatype Valuation = Valuation(rows: seq<Valued>, total: real)

  /** A map lookup that yields zero for an absent symbol, as a Go map does. */
  function PriceOr0(m: map<string, real>, s: string): real
  {
    if s in m then m[s] else 0.0
  }

  /** The profit/loss indicator: a loss, a gain, or neither. */
  function Indicator(current: real, cost: real): (pl: string)
    ensures pl == "-" <==> current < cost
    ensures pl == "+" <==> current > cost
    ensures pl == "" <==> current == cost
  {
    if current < cost then "-" else if current > cost then "+" else ""
  }

  /** Current value of one position. */
  function Worth(v: Valued): real
  {
    v.shares as real * v.current
  }

  /** Market value of a list of positions, summed from the front. */
  function MarketValue(vs: seq<Valued>): real
  {
    if |vs| == 0 then 0.0 else Worth(vs[0]) + MarketValue(vs[1..])
  }

  lemma {:induction false} MarketValueAppend(vs: seq<Valued>, v: Valued)
    ensures MarketValue(vs + [v]) == MarketValue(vs) + Worth(v)
    decreases |vs|
  {
    if |vs| == 0 {
      assert vs + [v] == [v];
    } else {
      assert (vs + [v])[1..] == vs[1..] + [v];
      MarketValueAppend(vs[1..], v);
    }
  }

  /** One holding valued at the quotes in `m`. */
  function ValueOne(m: map<string, real>, h: Holding): (v: Valued)
    ensures v.symbol == h.symbol && v.shares == h.shares
    ensures v.current == PriceOr0(m, h.symbol)
    ensures v.pl == "-" <==> v.current < h.cost
    ensures v.pl == "+" <==> v.current > h.cost
    ensures v.pl == "" <==> v.current == h.cost
  {
    var current := PriceOr0(m, h.symbol);
    Valued(h.symbol, h.shares, current, Indicator(current, h.cost))
  }

  /** profitLoss: the loop over the stored holdings, in order, with the
      running total of current price times shares. */
  function Value(m: map<string, real>, hs: seq<Holding>): (r: Valuation)
    ensures |r.rows| == |hs|
    ensures forall i :: 0 <= i < |hs| ==>
              && r.rows[i].symbol == hs[i].symbol
              && r.rows[i].shares == hs[i].shares
              && r.rows[i].current == PriceOr0(m, hs[i].symbol)
              && (r.rows[i].pl == "-" <==> r.rows[i].current < hs[i].cost)
              && (r.rows[i].pl == "+" <==> r.rows[i].current > hs[i].cost)
              && (r.rows[i].pl == "" <==> r.rows[i].current == hs[i].cost)
    ensures r.total == MarketValue(r.rows)
    decreases |hs|
  {
    if |hs| == 0 then Valuation([], 0.0)
    else
      var prev := Value(m, hs[..|hs| - 1]);
      var v := ValueOne(m, hs[|hs| - 1]);
      MarketValueAppend(prev.rows, v);
      Valuation(prev.rows + [v], prev.total + Worth(v))
  }

  /** Valued at the very prices paid, no position shows a gain or a loss and
      the market value is the amount invested. */
  lemma ValuationAtCostIsNeutral(m: map<string, real>, hs: seq<Holding>)
    requires forall i :: 0 <= i < |hs| ==> PriceOr0(m, hs[i].symbol) == hs[i].cost
    ensures forall i :: 0 <= i < |hs| ==> Value(m, hs).rows[i].pl == ""
    ensures Value(m, hs).total == Invested(hs)
  {
    var v := Value(m, hs);
    forall i | 0 <= i < |hs|
      ensures v.rows[i].pl == ""
    {
      assert v.rows[i].current == hs[i].cost;
    }
    MarketValueAtCost(v.rows, hs);
  }

  /** Positions priced at their holdings' cost bases are worth what was spent. */
  lemma {:induction false} MarketValueAtCost(vs: seq<Valued>, hs: seq<Holding>)
    requires |vs| == |hs|
    requires forall i :: 0 <= i < |hs| ==> vs[i].shares == hs[i].shares && vs[i].current == hs[i].cost
    ensures MarketValue(vs) == Invested(hs)
    decreases |hs|
  {
    if |hs| > 0 {
      MarketValueAtCost(vs[1..], hs[1..]);
      WorthAtCost(vs[0], hs[0]);
    }
  }

  lemma WorthAtCost(v: Valued, h: Holding)
    requires v.shares == h.shares && v.current == h.cost
    ensures Worth(v) == Spent(h)
  {
  }
}
